=== FILE: README.md ===
# VBS storefront: a Dafny model of its session store, guards and page logic

This project models the logic of the VBS (VPS Supplier) storefront, a React
front end for a construction-supplies marketplace. The model is functional.
Every piece of component state is an immutable record, and every handler is a
pure function from the old state to the new one. The parts covered are:

- the authentication store (`AuthProvider`): mount-time restore from the
  `vps_user` storage entry, `login`, `register`, `logout` and `switchRole`;
- the `ProtectedRoute` gate and the route table of `App`;
- the header's handlers and which links it shows;
- the records and enumerations of `types/index.ts`;
- the catalog filter of the products page, `handleFilterChange` and
  `clearFilters`;
- the quantity stepper, disabled buttons and image selection of the product
  page;
- the statistics, colour maps, thresholds and "recent" slices of the buyer and
  seller dashboards;
- the security submit, preference switches and initial profile data of the
  profile page;
- the contact form's edits, submit and disabled button;
- the landing page's category slug, step connectors and star row, and the
  footer's category links.

Modules follow the source files. `Wrappers` holds `Option`. `Types` holds the
records. `Text` holds the ASCII string functions behind `toLowerCase`,
`includes` and the slug `toLowerCase().replace(/\s+/g, '-')`. `Aggregates`
holds the order folds shared by both dashboards. There is one module per
component after that.

The storage entry is a `slot: Option<string>` inside `AuthState`. `JSON.stringify`
and `JSON.parse` are the two fields of a `Codec` chosen by the caller, and
`new Date()` is a `now` argument. The central invariant is `Mirrors`: the slot
holds exactly the serialized user, or both are absent. `MirrorsPreserved` proves
that every fault-free sequence of operations keeps it.

A failed `login` or `register` leaves the new user in memory and the old text
in storage. The only statement in the `try` block that can throw is
`localStorage.setItem`, and it runs after `setUser(mockUser)`
(src/context/AuthContext.tsx:56-57, 84-85). `Authenticate` models this, and
`FailedLoginBreaksMirror` shows that such a failure breaks `Mirrors`.

Two landing-page category cards link to slugs that are not product categories:
"Tools & Equipment" becomes `tools-&-equipment` and "Electrical Items" becomes
`electrical-items` (`LandingPage.SlugsMissCategories`). The other four match
(`LandingPage.SlugsHitCategories`).

## Model

| member | source | states |
|---|---|---|
| Types.RoleNameInjective | src/types/index.ts:7 | The three role strings are pairwise different, so a stored role string names exactly one role. |
| Types.CategoriesClosed | src/types/index.ts:61-74 | `ProductCategory` has exactly thirteen values, every value is listed, and no two share a slug. |
| Types.StatusesClosed | src/types/index.ts:100-113 | `OrderStatus` has exactly seven values and `PaymentStatus` exactly four, each with its own string. |
| Text.LowerPointwise | src/pages/ProductsPage.tsx:130 | `toLowerCase` maps each character on its own and leaves no upper-case letter. |
| Text.LowerAppend | src/pages/LandingPage.tsx:266 | Lower-casing a concatenation lower-cases each part. |
| Text.LowerIdempotent | src/pages/ProductsPage.tsx:130 | Lower-casing twice is lower-casing once. |
| Text.DropSpaces | src/pages/LandingPage.tsx:266 | Dropping a whitespace run leaves a suffix of the input that does not start with whitespace. |
| Text.CollapseShape | src/pages/LandingPage.tsx:266 | After `replace(/\s+/g, '-')` no whitespace is left, no upper-case letter appears, and a text without whitespace is unchanged. |
| Text.SlugShape | src/pages/LandingPage.tsx:266 | A slug has no whitespace and no upper-case letter, and is no longer than its input. |
| Text.SlugIdempotent | src/pages/LandingPage.tsx:266 | Slugging a slug changes nothing. |
| Text.CollapseRun | src/pages/LandingPage.tsx:266 | A maximal whitespace run of any length after a word becomes a single `-`. |
| Text.CollapseTwo | src/pages/LandingPage.tsx:266 | Two space-free pieces joined by one space collapse to the pieces joined by one `-`. |
| Text.CollapseThree | src/pages/LandingPage.tsx:266 | Three space-free pieces joined by single spaces collapse to the pieces joined by `-`. |
| Text.SlugOfTwoWords | src/pages/LandingPage.tsx:266 | Two words joined by one space slug to the lower-cased words joined by `-`. |
| Text.SlugOfThreeWords | src/pages/LandingPage.tsx:266 | Three words joined by single spaces slug to the lower-cased words joined by `-`. |
| Text.SlugScan | src/pages/LandingPage.tsx:266 | A left-to-right scan that lower-cases each character and emits one `-` at the start of each whitespace run computes exactly the slug. |
| AuthContext.Mount | src/context/AuthContext.tsx:19-20 | The provider starts with no user, loading, and storage as found. |
| AuthContext.Initialize | src/context/AuthContext.tsx:22-35 | A read of the slot that throws leaves the state as mounted, loading still on. Otherwise a truthy slot that parses becomes the user unchecked and is kept; one that fails to parse is removed and the user stays null; an absent or empty slot is untouched; and loading ends. |
| AppRoutes.ThrowingReadSpinsOnGuardedRoutes | src/context/AuthContext.tsx:22-35 | If reading the stored session throws on mount, loading stays on and every guarded route shows the spinner. |
| AuthContext.LoginUser | src/context/AuthContext.tsx:45-54 | The fabricated user takes only the e-mail from the credentials, with id `1`, name `John Doe`, the fixed phone, role buyer, verified, and both timestamps `now`. |
| AuthContext.RegisterUser | src/context/AuthContext.tsx:73-82 | The fabricated user copies name, e-mail, phone and role from the data, with id `1`, unverified, and can never be admin. |
| AuthContext.Authenticate | src/context/AuthContext.tsx:37-92 | Loading goes on, then off, and the new user is held on both paths. On success the slot is the serialized user and the promise resolves. If the write throws, the slot keeps its old text and the promise rejects with the given message. |
| AuthContext.Login | src/context/AuthContext.tsx:37-64 | `login`: loading on while pending and off after. The password is ignored. Success writes the serialized user. Failure rejects with the fixed login message and leaves the slot as it was. |
| AuthContext.Register | src/context/AuthContext.tsx:66-92 | `register`: the same, with the fixed registration message. The password and its confirmation are never compared. |
| AuthContext.Logout | src/context/AuthContext.tsx:94-97 | From any state, no user and no slot. |
| AuthContext.LogoutIdempotent | src/context/AuthContext.tsx:94-97 | Logging out twice is logging out once. |
| AuthContext.SwitchRole | src/context/AuthContext.tsx:99-105 | Without a user nothing changes. With one, only the role changes and the slot is rewritten with the updated user. The result is never admin. |
| AuthContext.OpMirrors | src/context/AuthContext.tsx:56-57 | Fault-free login and register, and logout, establish the mirror from any state. Switching role keeps it. |
| AuthContext.MirrorsPreserved | src/context/AuthContext.tsx:56-103 | From a mirrored state, every fault-free sequence of operations ends mirrored. |
| AuthContext.FailedLoginBreaksMirror | src/context/AuthContext.tsx:56-60 | A login whose storage write throws rejects, yet holds the new user next to a stale slot. |
| AuthContext.LogoutThenReloadHasNoSession | src/context/AuthContext.tsx:94-97 | After logout, a fresh page load restores no user. |
| AuthContext.LoginThenReloadRestores | src/context/AuthContext.tsx:24-57 | After a successful login, a page load with a faithful codec restores a verified buyer with the same e-mail. |
| ProtectedRoute.Gate | src/components/auth/ProtectedRoute.tsx:13-34 | Exactly one of three results: a spinner iff loading, a replace-redirect to `/login` iff not loading and no user, the children iff not loading and a user. The role test only decides whether a log line is written. |
| ProtectedRoute.RolesOnlyLogged | src/components/auth/ProtectedRoute.tsx:28-32 | What is shown depends only on loading and on whether there is a user, never on the user's role or the allowed roles. |
| ProtectedRoute.PermissiveForSignedIn | src/components/auth/ProtectedRoute.tsx:28-34 | A signed-in user whose role is not allowed still sees the children. |
| AppRoutes.FindIn | src/App.tsx:38-75 | A route lookup returns a route of the table whose pattern is the path, or reports that no pattern is. |
| AppRoutes.VisitPath | src/App.tsx:38-75 | A path equal to no route pattern matches nothing, and an unguarded route is a public page. |
| AppRoutes.FindFirst | src/App.tsx:38-75 | The lookup returns the first route whose path matches. |
| AppRoutes.GuardedRoutes | src/App.tsx:51-74 | The buyer dashboard allows buyer and admin, the seller dashboard seller and admin, the profile all three roles. |
| AppRoutes.LookupGuarded | src/App.tsx:51-74 | Each guarded route is the one found for its own path. |
| AppRoutes.PublicAndAdmin | src/App.tsx:40-74 | Twelve routes: the first nine are not guarded, the last three are, and every guard lists admin. |
| AppRoutes.ProfileAdmitsEveryRole | src/App.tsx:67-74 | `/profile` lists every role, so any signed-in user passes even a strict role check there, and sees the page. |
| AppRoutes.PublicAt | src/App.tsx:38-48 | An unguarded route whose path no earlier route shares is served as a public page to anyone. |
| AppRoutes.PublicIgnoresSession | src/App.tsx:40-48 | A public page is shown whatever the loading flag and user. |
| Header.HandleLogout | src/components/layout/Header.tsx:26-30 | Logs out, navigates to `/`, closes the user menu and leaves the mobile menu as it was. |
| Header.HandleDashboardSwitch | src/components/layout/Header.tsx:32-37 | Switches the role, navigates to `/dashboard/<role>`, closes the user menu and leaves the mobile menu as it was. |
| Header.DashboardRoute | src/components/layout/Header.tsx:35 | The buyer and seller dashboard paths are the table's buyer and seller routes. |
| Header.SwitchLandsOnAdmittingRoute | src/components/layout/Header.tsx:34-35 | A dashboard switch lands on a guarded route that lists the new role, so a strict role check would pass too. |
| Header.SwitchShowsDashboard | src/components/layout/Header.tsx:32-37 | For a signed-in user, once loading is over, a switch shows the dashboard. |
| Header.SwitchWithoutUserRedirects | src/components/layout/Header.tsx:32-37 | Without a user the switch leaves the store alone, and the dashboard redirects to `/login`. |
| Header.Render | src/components/layout/Header.tsx:68-191 | Login/Register links iff no user, the user-menu button iff a user, never both. The user panel iff signed in and the user menu is open. The mobile navigation iff the mobile menu is open, with Login/Register in it iff no user. |
| Header.InitialView | src/components/layout/Header.tsx:16-17 | The header first renders with no user panel and no mobile navigation, and with Login/Register iff no user. |
| Header.ToggleFlipsPanel | src/components/layout/Header.tsx:71-79 | For a signed-in user, the user-menu button shows the panel iff it was hidden, and the mobile navigation stays as it was. |
| Header.LogoutView | src/components/layout/Header.tsx:26-30 | After the logout handler the header shows Login/Register, no user-menu button and no panel. |
| Header.ToggleUserMenu | src/components/layout/Header.tsx:71 | Flips the user menu and leaves the mobile menu. |
| Header.ToggleMobileMenu | src/components/layout/Header.tsx:142 | Flips the mobile menu and leaves the user menu. |
| Header.MobileLinks | src/components/layout/Header.tsx:164-191 | The mobile menu lists `/`, `/products`, `/about` and `/contact`, then `/login` and `/register` for a visitor only: six links for a visitor, four for a signed-in user. |
| Header.ClickMobileLink | src/components/layout/Header.tsx:164-191 | Clicking the i-th mobile link navigates to that link, closes the mobile menu and leaves the user menu. |
| Header.MobileLinksArePublic | src/components/layout/Header.tsx:176-188 | Every mobile link leads to a public route. |
| ProductsPage.KeepsIffPasses | src/pages/ProductsPage.tsx:128-137 | A product survives the chain of early returns iff it passes every switched-on check. |
| ProductsPage.FilterProducts | src/pages/ProductsPage.tsx:128-137 | The filtered list holds only kept products from the catalog, every kept product, and is no longer. |
| ProductsPage.FilterCopies | src/pages/ProductsPage.tsx:128-137 | Each passing product appears as many times as in the catalog, and any other product not at all. |
| ProductsPage.FilterIsSubsequence | src/pages/ProductsPage.tsx:128-137 | The filtered list is an order-preserving subsequence of the catalog. |
| ProductsPage.FilterKeepsPassing | src/pages/ProductsPage.tsx:128-137 | A list whose every product passes comes back unchanged. |
| ProductsPage.FilterIdempotent | src/pages/ProductsPage.tsx:126-139 | Filtering the filtered list again changes nothing. |
| ProductsPage.ClearShowsEverything | src/pages/ProductsPage.tsx:148-158 | After `clearFilters` every product passes and the whole catalog is shown. |
| ProductsPage.FalsyValuesDisable | src/pages/ProductsPage.tsx:129-135 | A present `0`, `''` or `false` acts exactly like an absent value. |
| ProductsPage.InStockRemovesOnlyZeroStock | src/pages/ProductsPage.tsx:134 | The in-stock filter removes exactly the products whose stock is zero. |
| ProductsPage.SellerIdIgnored | src/types/index.ts:159 | `sellerId` never changes which products are kept. |
| ProductsPage.TextFiltersIgnoreCase | src/pages/ProductsPage.tsx:130-135 | Subcategory and search text match regardless of the query's letter case. |
| ProductsPage.Get | src/types/index.ts:152-161 | Each filter key reads a value of its declared type. |
| ProductsPage.HandleFilterChange | src/pages/ProductsPage.tsx:141-146 | The key takes the value and every other key keeps its own. |
| ProductsPage.GetDetermines | src/types/index.ts:152-161 | Two filter records that agree on every key are equal. |
| ProductsPage.ChangeToSameValue | src/pages/ProductsPage.tsx:141-146 | Setting a key to the value it holds changes nothing. |
| ProductsPage.ShowingCountBounded | src/pages/ProductsPage.tsx:394 | The "Showing n of m" count has n at most m, with equality iff every product passes. |
| ProductsPage.DropShortens | src/pages/ProductsPage.tsx:128-137 | If some product fails, the filtered list is strictly shorter. |
| ProductDetailPage.HandleQuantityChange | src/pages/ProductDetailPage.tsx:65-70 | The quantity moves by the step iff the result lies in 1..stock (or the step is zero), and otherwise stays. A quantity within 1..stock stays there. |
| ProductDetailPage.QuantityStaysInRange | src/pages/ProductDetailPage.tsx:65-70 | Once within 1..stock, the quantity stays there under any run of clicks. |
| ProductDetailPage.NoStockRejectsAll | src/pages/ProductDetailPage.tsx:67 | With no stock, every click is refused and the quantity stays at its initial 1. |
| ProductDetailPage.ControlsMatchGuard | src/pages/ProductDetailPage.tsx:216-240 | Within 1..stock, `-` is enabled iff a decrement takes effect, `+` iff an increment does, and add-to-cart is enabled. |
| ProductDetailPage.AddToCartDisabledIffNoStock | src/pages/ProductDetailPage.tsx:226-240 | Add-to-cart is disabled iff stock is zero, and `+` is then disabled too. |
| ProductDetailPage.SelectThumbnail | src/pages/ProductDetailPage.tsx:133-136 | A thumbnail click selects an index of the image list. |
| ProductDetailPage.SelectionInRange | src/pages/ProductDetailPage.tsx:133-136 | The selection starts at 0, and after any click it is the last clicked index, which is in range. |
| ProductDetailPage.LastClickWins | src/pages/ProductDetailPage.tsx:133-136 | After a run of clicks the selection is the last index clicked. |
| Aggregates.WithStatus | src/pages/dashboard/BuyerDashboard.tsx:55-61 | The status filter returns only orders of the list whose status is in the set, every such order, and never more orders than the list has. |
| Aggregates.WithStatusCopies | src/pages/dashboard/BuyerDashboard.tsx:55-61 | Each qualifying order appears as many times as in the list, and any other order not at all. |
| Aggregates.WithStatusInOrder | src/pages/dashboard/BuyerDashboard.tsx:55-61 | The kept orders keep the order of the list. |
| Aggregates.CountDisjointUnion | src/pages/dashboard/SellerDashboard.tsx:170 | Counting orders whose status is in one of two disjoint sets gives the sum of the two counts. |
| Aggregates.CountDisjointBounded | src/pages/dashboard/SellerDashboard.tsx:170-176 | Counts for disjoint status sets add up to at most the number of orders. |
| Aggregates.TotalAppend | src/pages/dashboard/BuyerDashboard.tsx:67 | The sum of `totalAmount` over two lists in a row is the sum of their totals. |
| Aggregates.TotalSplitsByStatus | src/pages/dashboard/SellerDashboard.tsx:182 | The total over all orders is the total of those with a status in a set plus the total of the rest. |
| Aggregates.TotalNonNegative | src/pages/dashboard/BuyerDashboard.tsx:67 | Non-negative amounts have a non-negative total. |
| Aggregates.FirstThree | src/pages/dashboard/BuyerDashboard.tsx:181 | `slice(0, 3)` is a prefix of length `min(3, n)`. |
| BuyerDashboard.StatsFor | src/pages/dashboard/BuyerDashboard.tsx:46-71 | Total orders is the list length. Pending and completed count their statuses and together do not exceed it. Total spent is the sum of amounts, and 0 for no orders. |
| BuyerDashboard.StatsGrowWithOrder | src/pages/dashboard/BuyerDashboard.tsx:49-67 | One more order adds one to the count and its amount to the total spent. |
| BuyerDashboard.StatusColorClasses | src/pages/dashboard/BuyerDashboard.tsx:80-87 | Pending, confirmed and completed get three different classes, and exactly the other four statuses get the default. |
| BuyerDashboard.RecentOrders | src/pages/dashboard/BuyerDashboard.tsx:181 | The recent list is the first `min(3, n)` orders, in order. |
| SellerDashboard.StatsFor | src/pages/dashboard/SellerDashboard.tsx:161-186 | Total products is the product count. Active counts pending plus confirmed, completed counts completed, and together they do not exceed the orders. Revenue is the sum of all amounts. |
| SellerDashboard.RevenueIncludesPending | src/pages/dashboard/SellerDashboard.tsx:182 | Revenue is the pending orders' total plus everyone else's, so pending orders count as revenue. |
| SellerDashboard.StatusColorsAgree | src/pages/dashboard/SellerDashboard.tsx:196-203 | The seller's string-keyed status colours agree with the buyer's for every order status. |
| SellerDashboard.PaymentColorClasses | src/pages/dashboard/SellerDashboard.tsx:205-212 | Pending, paid and failed get three different classes, and exactly refunded falls to the default. |
| SellerDashboard.ApprovalBadge | src/pages/dashboard/SellerDashboard.tsx:319-321 | The badge reads "Approved" iff the product is approved, and "Pending" otherwise. |
| SellerDashboard.StockClass | src/pages/dashboard/SellerDashboard.tsx:409 | The stock label is green iff stock exceeds ten, and red otherwise. |
| SellerDashboard.RecentListsArePrefixes | src/pages/dashboard/SellerDashboard.tsx:307-340 | Recent products and recent orders are prefixes of at most three, of exactly three when there are enough, and the order list matches the buyer's. |
| ProfilePage.InitialProfile | src/pages/ProfilePage.tsx:22-28 | Name, e-mail and phone come from the user, or are empty without one. Company and address start empty. |
| ProfilePage.HandleSecuritySubmit | src/pages/ProfilePage.tsx:51-71 | Mismatched new and confirmed passwords raise an error and keep the form. Matching ones raise a success and clear all three fields. |
| ProfilePage.CurrentPasswordIgnored | src/pages/ProfilePage.tsx:53 | The current password never changes the outcome. |
| ProfilePage.EmptyPairAccepted | src/pages/ProfilePage.tsx:53-70 | An empty new/confirm pair is accepted, so resubmitting a cleared form succeeds again. |
| ProfilePage.MismatchKeepsForm | src/pages/ProfilePage.tsx:53-59 | A mismatched submit can be repeated without touching the form. |
| ProfilePage.HandlePreferencesChange | src/pages/ProfilePage.tsx:73-78 | The switch takes the value and the other two keep theirs. |
| ProfilePage.PreferenceLastWriteWins | src/pages/ProfilePage.tsx:73-78 | Changing one switch twice keeps only the second value. |
| ProfilePage.PreferenceChangesCommute | src/pages/ProfilePage.tsx:73-78 | Changes to different switches commute. |
| ContactPage.HandleInputChange | src/pages/ContactPage.tsx:24-30 | The named field takes the typed value, every other field keeps its own, and the loading flag is untouched. |
| ContactPage.BeginSubmit | src/pages/ContactPage.tsx:32-34 | Submitting turns loading on and leaves the form. |
| ContactPage.CompleteSubmit | src/pages/ContactPage.tsx:37-50 | When the timer fires, every field is empty and loading is off: the initial state. |
| ContactPage.SubmitRoundTrip | src/pages/ContactPage.tsx:32-50 | A full submission returns the page to its initial state, and the button is disabled only in between. |
| ContactPage.EditsDuringSubmitAreCleared | src/pages/ContactPage.tsx:24-50 | Typing during a submission is lost when the timer fires. |
| LandingPage.CategoryLink | src/pages/LandingPage.tsx:266 | A card link is `/products?category=` followed by the slug of the name. |
| LandingPage.OneWordSlug | src/pages/LandingPage.tsx:266 | A name without whitespace slugs to its lower-case form. |
| LandingPage.ToolsSlug | src/pages/LandingPage.tsx:266 | "Tools & Equipment" slugs to `tools-&-equipment`: the ampersand stays, with a dash on each side. |
| LandingPage.ElectricalSlug | src/pages/LandingPage.tsx:266 | "Electrical Items" slugs to `electrical-items`. |
| LandingPage.RawMaterialsSlug | src/pages/LandingPage.tsx:266 | "Raw Materials" slugs to `raw-materials`. |
| LandingPage.ToolsMisses | src/pages/LandingPage.tsx:266 | The "Tools & Equipment" card links to `tools-&-equipment`, which is not the value of any product category. |
| LandingPage.ElectricalMisses | src/pages/LandingPage.tsx:266 | The "Electrical Items" card links to `electrical-items`, which is not the value of any product category. |
| LandingPage.SlugsMissCategories | src/pages/LandingPage.tsx:44-51 | "Tools & Equipment" slugs to `tools-&-equipment` and "Electrical Items" to `electrical-items`, and neither is a category value. |
| LandingPage.SlugsHitCategories | src/pages/LandingPage.tsx:44-51 | Fasteners, Raw Materials, Machinery and Plumbing slug to the values of their categories. |
| LandingPage.ConnectorsBetweenSteps | src/pages/LandingPage.tsx:347 | A connector follows every step but the last, so `n` steps have `n - 1` connectors. |
| LandingPage.ShownBelowCount | src/pages/LandingPage.tsx:347 | Among the first `k` steps, every one but the overall last has a connector. |
| LandingPage.StarCount | src/pages/LandingPage.tsx:385 | The star row has exactly `rating` stars, and `Array` throws for a negative rating or one of 2^32 and above. |
| Footer.CategoryLink | src/components/layout/Footer.tsx:93 | Every footer link starts with `/products?category=` and ends in a slug without whitespace or upper-case letters. |
| Footer.SameLinkAsLanding | src/components/layout/Footer.tsx:93 | The footer builds a link from a name exactly as a landing card does. |
| Footer.SameNamesAsLanding | src/components/layout/Footer.tsx:26-33 | The footer lists the landing page's six category names, in the same order. |
| Footer.LinksAgreeWithLanding | src/components/layout/Footer.tsx:93 | The i-th footer link equals the i-th landing-page card link. |

## Left out

- Rendering: JSX, Tailwind classes other than the colour and stock classes, framer-motion, and the image `onError` fallbacks.
- React plumbing: contexts, hooks, and the error `useAuth` throws outside its provider (src/context/AuthContext.tsx:6-12).
- Timers and concurrency: every `setTimeout` is a gap between two states of one operation. Overlapping `login`/`register` calls are not modelled.
- AuthContext.Initialize: a parsed value is taken as a `User` or `null`. JSON texts of any other shape, such as numbers or arrays, which the source would also store unchecked, are not represented.
- AuthContext.SwitchRole: a `setItem` failure is not modelled; the slot is always rewritten (src/context/AuthContext.tsx:102-103).
- AuthContext.Logout: a `removeItem` failure is not modelled; the slot is always cleared (src/context/AuthContext.tsx:96).
- AuthContext.Initialize: a `removeItem` failure after an unparsable entry is not modelled (src/context/AuthContext.tsx:31).
- AuthContext.LoginThenReloadRestores: it assumes the codec restores the identity fields. Dates come back from `JSON.parse` as strings, so full equality of the `User` record is not claimed.
- Clock and locale: `new Date()` is a parameter. `login` and `register` call it twice per user (src/context/AuthContext.tsx:52-53, 80-81), but the model passes one instant to both fields, so `createdAt == updatedAt` holds in the model but is not guaranteed by the source. `toLocaleString` and `toLocaleDateString` are not modelled, so the stat cards carry plain numbers.
- Text: `toLowerCase` and `\s` are restricted to ASCII. Unicode case mapping and Unicode whitespace are not modelled.
- Numbers: prices, ratings and amounts are `real`, with no NaN and no floating-point rounding. Stock and quantity are whole numbers (`int`), although the source types them as `number`.
- The `?category=` query parameter: the products page never reads it, so no link between a slug and the catalog filter is modelled.
- The mock fixtures of every page, the static About, Terms and Privacy pages, `handleProfileSubmit` (only a notification), the notification context and the login/register pages are not part of this model.
- AppRoutes.FindIn: a path is compared with each route pattern as literal text. React Router's dynamic segments are not modelled, so `/products/:id` is reached only by that exact text, and `/products/42` matches nothing in the model.
- AppRoutes.VisitPath: matching is case-sensitive and a trailing `/` is not ignored, unlike React Router's default, so `/profile/` or `/Dashboard/Buyer` match nothing in the model.
- ProtectedRoute.Gate: the console line is a flag in the result, not its text.
- ProductDetailPage.ControlsMatchGuard: it holds only because stock is a whole number. With a fractional stock such as 2.5 and quantity 2, `+` is enabled (`quantity >= product.stock` is false, src/pages/ProductDetailPage.tsx:226) but the click is refused (`newQuantity <= product!.stock` fails, src/pages/ProductDetailPage.tsx:67). Fractional stock is not modelled.
- ContactPage.BeginSubmit: the browser's form validation is not modelled. The four inputs are `required` and the e-mail input has `type="email"` (src/pages/ContactPage.tsx:137-208), so the browser blocks an empty or invalid form before `handleSubmit` runs, but the model lets any form submit.

=== FILE: aggregates.dfy ===
/**
 * The list folds both dashboards compute over their orders:
 * `orders.filter(o => ...).length`, `orders.reduce((sum, o) => sum + o.totalAmount, 0)`
 * and `slice(0, 3)`.
 */
module Aggregates {
  import opened Types
  import opened Sequences

  /** `orders.filter(o => o.status in statuses)`. */
  function WithStatus(orders: seq<Order>, statuses: set<OrderStatus>): (r: seq<Order>)
    ensures |r| <= |orders|
    ensures forall i :: 0 <= i < |r| ==> r[i].status in statuses && r[i] in orders
    ensures forall o :: o in orders && o.status in statuses ==> o in r
    decreases |orders|
  {
    if |orders| == 0 then []
    else (if orders[0].status in statuses then [orders[0]] else []) + WithStatus(orders[1..], statuses)
  }

  /** The filter keeps every copy of a qualifying order and no copy of any other. */
  lemma {:induction false} WithStatusCopies(orders: seq<Order>, statuses: set<OrderStatus>)
    ensures forall o :: multiset(WithStatus(orders, statuses))[o]
                     == (if o.status in statuses then multiset(orders)[o] else 0)
    decreases |orders|
  {
    if |orders| > 0 {
      var rest := WithStatus(orders[1..], statuses);
      WithStatusCopies(orders[1..], statuses);
      assert orders == [orders[0]] + orders[1..];
      if orders[0].status in statuses {
        assert WithStatus(orders, statuses) == [orders[0]] + rest;
      } else {
        assert WithStatus(orders, statuses) == rest;
      }
    }
  }

  /** The kept orders appear in the order of the input. */
  lemma {:induction false} WithStatusInOrder(orders: seq<Order>, statuses: set<OrderStatus>)
    ensures IsSubsequence(WithStatus(orders, statuses), orders)
    decreases |orders|
  {
    if |orders| > 0 {
      WithStatusInOrder(orders[1..], statuses);
      var rest := WithStatus(orders[1..], statuses);
      if orders[0].status in statuses {
        assert WithStatus(orders, statuses) == [orders[0]] + rest;
        assert ([orders[0]] + rest)[1..] == rest;
      } else {
        assert WithStatus(orders, statuses) == rest;
        assert |rest| > 0 ==> rest[0].status in statuses;
      }
    }
  }

  /** The number of orders whose status is in `statuses`. */
  function CountWithStatus(orders: seq<Order>, statuses: set<OrderStatus>): nat {
    |WithStatus(orders, statuses)|
  }

  /** Orders of disjoint status sets are counted separately and add up. */
  lemma {:induction false} CountDisjointUnion(orders: seq<Order>, a: set<OrderStatus>, b: set<OrderStatus>)
    requires a !! b
    ensures CountWithStatus(orders, a + b) == CountWithStatus(orders, a) + CountWithStatus(orders, b)
    decreases |orders|
  {
    if |orders| > 0 {
      CountDisjointUnion(orders[1..], a, b);
    }
  }

  /** Counts of disjoint status sets never exceed the number of orders together. */
  lemma CountDisjointBounded(orders: seq<Order>, a: set<OrderStatus>, b: set<OrderStatus>)
    requires a !! b
    ensures CountWithStatus(orders, a) + CountWithStatus(orders, b) <= |orders|
  {
    CountDisjointUnion(orders, a, b);
  }

  /** `orders.reduce((sum, o) => sum + o.totalAmount, 0)`. */
  function TotalAmount(orders: seq<Order>): real
    decreases |orders|
  {
    if |orders| == 0 then 0.0 else orders[0].totalAmount + TotalAmount(orders[1..])
  }

  /** The total of two lists one after the other is the sum of their totals. */
  lemma {:induction false} TotalAppend(a: seq<Order>, b: seq<Order>)
    ensures TotalAmount(a + b) == TotalAmount(a) + TotalAmount(b)
    decreases |a|
  {
    if |a| == 0 {
      assert a + b == b;
    } else {
      assert (a + b)[1..] == a[1..] + b;
      TotalAppend(a[1..], b);
    }
  }

  /** The total splits into the orders with a status in `s` and those without. */
  lemma {:induction false} TotalSplitsByStatus(orders: seq<Order>, s: set<OrderStatus>)
    ensures TotalAmount(orders) == TotalAmount(WithStatus(orders, s)) + TotalAmount(WithStatus(orders, AllStatuses() - s))
    decreases |orders|
  {
    if |orders| > 0 {
      TotalSplitsByStatus(orders[1..], s);
      var o := orders[0];
      var inS := WithStatus(orders[1..], s);
      var outS := WithStatus(orders[1..], AllStatuses() - s);
      if o.status in s {
        assert WithStatus(orders, s) == [o] + inS;
        assert WithStatus(orders, AllStatuses() - s) == outS;
        TotalAppend([o], inS);
      } else {
        assert WithStatus(orders, s) == inS;
        assert WithStatus(orders, AllStatuses() - s) == [o] + outS;
        TotalAppend([o], outS);
      }
    }
  }

  function AllStatuses(): (all: set<OrderStatus>)
    ensures forall s: OrderStatus :: s in all
  {
    StatusesClosed();
    set s | s in AllOrderStatuses
  }

  /** A total of non-negative amounts is non-negative. */
  lemma {:induction false} TotalNonNegative(orders: seq<Order>)
    requires forall i :: 0 <= i < |orders| ==> orders[i].totalAmount >= 0.0
    ensures TotalAmount(orders) >= 0.0
    decreases |orders|
  {
    if |orders| > 0 {
      TotalNonNegative(orders[1..]);
    }
  }

  /** `xs.slice(0, 3)`: the first three items, or all of them when there are fewer. */
  function FirstThree<T>(xs: seq<T>): (r: seq<T>)
    ensures |r| == if |xs| < 3 then |xs| else 3
    ensures r <= xs
  {
    if |xs| < 3 then xs else xs[..3]
  }
}

=== FILE: app_routes.dfy ===
/** The route table of `src/App.tsx`: which paths are wrapped in the guard, and with which roles. */
module AppRoutes {
  import opened Wrappers
  import opened Types
  import opened ProtectedRoute
  import AuthContext

  /** A route; `guard` is `None` for a public page and the `allowedRoles` otherwise. */
  datatype Route = Route(path: string, guard: Option<seq<Role>>)

  const AllRoles: seq<Role> := [Buyer, Seller, Admin]

  const Routes: seq<Route> := [
    Route("/", None),
    Route("/about", None),
    Route("/contact", None),
    Route("/products", None),
    Route("/products/:id", None),
    Route("/login", None),
    Route("/register", None),
    Route("/terms", None),
    Route("/privacy", None),
    Route("/dashboard/buyer", Some([Buyer, Admin])),
    Route("/dashboard/seller", Some([Seller, Admin])),
    Route("/profile", Some([Buyer, Seller, Admin]))
  ]

  /** The first route whose pattern is exactly `path`. */
  function FindRoute(path: string): Option<Route> {
    FindIn(Routes, path)
  }

  function FindIn(rs: seq<Route>, path: string): (r: Option<Route>)
    ensures r.Some? ==> r.value in rs && r.value.path == path
    ensures r.None? ==> forall i :: 0 <= i < |rs| ==> rs[i].path != path
  {
    if |rs| == 0 then None
    else if rs[0].path == path then Some(rs[0])
    else FindIn(rs[1..], path)
  }

  /** What a route shows for the given session: a public page, or the guard's decision. */
  datatype Visit = PublicPage | Guarded(view: GateView) | NoMatch

  function VisitPath(path: string, isLoading: bool, user: Option<User>): (v: Visit)
    ensures v.NoMatch? <==> FindRoute(path).None?
    ensures v.PublicPage? <==> FindRoute(path).Some? && FindRoute(path).value.guard.None?
  {
    match FindRoute(path)
    case None => NoMatch
    case Some(r) =>
      match r.guard
      case None => PublicPage
      case Some(roles) => Guarded(Gate(isLoading, user, roles))
  }

  /** `FindIn` returns the first route whose pattern matches. */
  lemma {:induction false} FindFirst(rs: seq<Route>, path: string, k: nat)
    requires k < |rs| && rs[k].path == path
    requires forall j :: 0 <= j < k ==> rs[j].path != path
    ensures FindIn(rs, path) == Some(rs[k])
    decreases k
  {
    if k > 0 {
      FindFirst(rs[1..], path, k - 1);
    }
  }

  /** An unguarded route whose pattern differs from every earlier one is served as a public page. */
  lemma PublicAt(k: nat, user: Option<User>)
    requires k < |Routes| && Routes[k].guard.None?
    requires forall j :: 0 <= j < k ==> Routes[j].path != Routes[k].path
    ensures VisitPath(Routes[k].path, false, user).PublicPage?
  {
    FindFirst(Routes, Routes[k].path, k);
  }

  /** The table's guard data, as the source writes it. */
  lemma GuardedRoutes()
    ensures FindRoute("/dashboard/buyer") == Some(Route("/dashboard/buyer", Some([Buyer, Admin])))
    ensures FindRoute("/dashboard/seller") == Some(Route("/dashboard/seller", Some([Seller, Admin])))
    ensures FindRoute("/profile") == Some(Route("/profile", Some([Buyer, Seller, Admin])))
  {
    LookupGuarded(9);
    LookupGuarded(10);
    LookupGuarded(11);
  }

  /** Each guarded route is the one found for its own path. */
  lemma LookupGuarded(k: nat)
    requires 9 <= k < |Routes|
    ensures FindRoute(Routes[k].path) == Some(Routes[k])
  {
    FindFirst(Routes, Routes[k].path, k);
  }

  /** The first nine routes are public and the last three guarded; `admin` is listed by every guarded one. */
  lemma PublicAndAdmin()
    ensures |Routes| == 12
    ensures forall i :: 0 <= i < |Routes| ==> (Routes[i].guard.None? <==> i < 9)
    ensures forall i :: 0 <= i < |Routes| && Routes[i].guard.Some? ==> Admin in Routes[i].guard.value
  {
  }

  /** `/profile` lists every role, so every signed-in user passes even a strict guard there. */
  lemma ProfileAdmitsEveryRole(u: User, path: string)
    requires path == "/profile"
    ensures FindRoute(path) == Some(Route(path, Some(AllRoles)))
    ensures StrictlyAdmits(u.role, AllRoles)
    ensures VisitPath(path, false, Some(u)) == Guarded(Children(false))
  {
    LookupGuarded(11);
    match u.role
    case Buyer =>
    case Seller =>
    case Admin =>
  }

  /** Public pages never consult the session. */
  lemma PublicIgnoresSession(path: string, l1: bool, u1: Option<User>, l2: bool, u2: Option<User>)
    requires VisitPath(path, l1, u1).PublicPage?
    ensures VisitPath(path, l2, u2).PublicPage?
  {
  }

  /**
   * When reading the stored session throws on mount, loading is never switched
   * off, so every guarded route keeps showing the spinner.
   */
  lemma ThrowingReadSpinsOnGuardedRoutes(stored: Option<string>, codec: AuthContext.Codec, k: nat)
    requires 9 <= k < |Routes|
    ensures var s := AuthContext.Initialize(AuthContext.Mount(stored), codec, true);
            s.isLoading && s.user.None? && VisitPath(Routes[k].path, s.isLoading, s.user) == Guarded(Spinner)
  {
    LookupGuarded(k);
  }
}

=== FILE: auth_context.dfy ===
/**
 * The session store of `src/context/AuthContext.tsx` as a record with
 * transition functions. The persisted `vps_user` entry of local storage is the
 * `slot`; `JSON.stringify` and `JSON.parse` are the two functions of a `Codec`
 * chosen by the caller; `new Date()` is the `now` argument; the one-second
 * simulated latency is the gap between an operation's pending state and its
 * final state.
 */
module AuthContext {
  import opened Wrappers
  import opened Types

  /** What `JSON.parse` yields: an exception, or a value (`None` is JSON `null`). */
  datatype Decoded = Malformed | Decoded(user: Option<User>)

  /** The JSON encoding, supplied from outside the model. */
  datatype Codec = Codec(serialize: User -> string, parse: string -> Decoded)

  /** The provider's state together with the one storage slot it owns. */
  datatype AuthState = AuthState(user: Option<User>, slot: Option<string>, isLoading: bool)

  /** How an asynchronous operation ended for its caller. */
  datatype Outcome = Resolved | Rejected(message: string)

  /**
   * An asynchronous operation: the state while the simulated request is in
   * flight, the state after it settled, and what the caller's promise did.
   */
  datatype Transition = Transition(pending: AuthState, final: AuthState, outcome: Outcome)

  const LoginFailedMessage := "Login failed. Please check your credentials."
  const RegisterFailedMessage := "Registration failed. Please try again."

  /** JavaScript truthiness of a `getItem` result: present and not the empty string. */
  predicate SlotTruthy(slot: Option<string>) {
    slot.Some? && slot.value != ""
  }

  /** The provider as first rendered: no user, loading, storage as the page found it. */
  function Mount(stored: Option<string>): (s: AuthState)
    ensures s.user.None? && s.isLoading && s.slot == stored
  {
    AuthState(None, stored, true)
  }

  /**
   * The mount effect. Reading the slot happens outside the `try`, so a read
   * that throws (`readThrows`) ends the effect before loading is switched
   * off. Otherwise a truthy slot that parses becomes the user with no check
   * of its shape; one that does not parse is removed; an absent or empty slot
   * is left alone; and loading ends on every one of these branches.
   */
  function Initialize(s: AuthState, codec: Codec, readThrows: bool): (r: AuthState)
    ensures readThrows ==> r == s
    ensures !readThrows ==> !r.isLoading
    ensures !readThrows && SlotTruthy(s.slot) && codec.parse(s.slot.value).Decoded? ==>
              r.user == codec.parse(s.slot.value).user && r.slot == s.slot
    ensures !readThrows && SlotTruthy(s.slot) && codec.parse(s.slot.value).Malformed? ==>
              r.user == s.user && r.slot.None?
    ensures !readThrows && !SlotTruthy(s.slot) ==> r.user == s.user && r.slot == s.slot
  {
    if readThrows then
      s
    else if SlotTruthy(s.slot) then
      match codec.parse(s.slot.value)
      case Decoded(u) => s.(user := u, isLoading := false)
      case Malformed => s.(slot := None, isLoading := false)
    else
      s.(isLoading := false)
  }

  /** The user `login` fabricates: only the e-mail comes from the caller. */
  function LoginUser(credentials: LoginCredentials, now: Timestamp): (u: User)
    ensures u.email == credentials.email
    ensures u.id == "1" && u.name == "John Doe" && u.phone == "+92 349 1386083"
    ensures u.role == Buyer && u.isVerified
    ensures u.createdAt == now && u.updatedAt == now
  {
    User("1", credentials.email, "John Doe", "+92 349 1386083", Buyer, true, now, now)
  }

  /** The user `register` fabricates from the caller's data. */
  function RegisterUser(data: RegisterData, now: Timestamp): (u: User)
    ensures u.id == "1" && !u.isVerified
    ensures u.name == data.name && u.email == data.email && u.phone == data.phone
    ensures u.role == data.role && u.role != Admin
    ensures u.createdAt == now && u.updatedAt == now
  {
    User("1", data.email, data.name, data.phone, data.role, false, now, now)
  }

  /**
   * Shared body of `login` and `register`: loading is switched on, then the
   * new user is set, then written to storage. Only the storage write can
   * throw (`writeThrows`); by then the user has already been replaced, so a
   * failed call leaves the new user in memory and the old slot in storage.
   */
  function Authenticate(s: AuthState, newUser: User, codec: Codec, writeThrows: bool, failure: string): (t: Transition)
    ensures t.pending == s.(isLoading := true)
    ensures !t.final.isLoading
    ensures t.final.user == Some(newUser)
    ensures !writeThrows ==> t.outcome == Resolved && t.final.slot == Some(codec.serialize(newUser))
    ensures writeThrows ==> t.outcome == Rejected(failure) && t.final.slot == s.slot
  {
    var pending := s.(isLoading := true);
    var withUser := pending.(user := Some(newUser));
    if writeThrows then
      Transition(pending, withUser.(isLoading := false), Rejected(failure))
    else
      Transition(pending, withUser.(slot := Some(codec.serialize(newUser)), isLoading := false), Resolved)
  }

  /** `login`: the password is never looked at. */
  function Login(s: AuthState, credentials: LoginCredentials, now: Timestamp, codec: Codec, writeThrows: bool): (t: Transition)
    ensures t.pending.isLoading && t.pending.user == s.user && t.pending.slot == s.slot
    ensures !t.final.isLoading
    ensures t.final.user == Some(LoginUser(credentials, now))
    ensures !writeThrows ==> t.outcome == Resolved && t.final.slot == Some(codec.serialize(t.final.user.value))
    ensures writeThrows ==> t.outcome == Rejected(LoginFailedMessage) && t.final.slot == s.slot
  {
    Authenticate(s, LoginUser(credentials, now), codec, writeThrows, LoginFailedMessage)
  }

  /** `register`: `password` and `confirmPassword` are never compared. */
  function Register(s: AuthState, data: RegisterData, now: Timestamp, codec: Codec, writeThrows: bool): (t: Transition)
    ensures t.pending.isLoading && t.pending.user == s.user && t.pending.slot == s.slot
    ensures !t.final.isLoading
    ensures t.final.user == Some(RegisterUser(data, now))
    ensures !writeThrows ==> t.outcome == Resolved && t.final.slot == Some(codec.serialize(t.final.user.value))
    ensures writeThrows ==> t.outcome == Rejected(RegisterFailedMessage) && t.final.slot == s.slot
  {
    Authenticate(s, RegisterUser(data, now), codec, writeThrows, RegisterFailedMessage)
  }

  /** `logout`: no user and no slot, from any state. */
  function Logout(s: AuthState): (r: AuthState)
    ensures r.user.None? && r.slot.None?
    ensures r.isLoading == s.isLoading
  {
    s.(user := None, slot := None)
  }

  /** Every field but `role` is the same in both users. */
  predicate SameIdentity(u: User, v: User) {
    && u.id == v.id && u.email == v.email && u.name == v.name && u.phone == v.phone
    && u.isVerified == v.isVerified && u.createdAt == v.createdAt && u.updatedAt == v.updatedAt
  }

  /** `switchRole`: with a user, only the role changes and the slot is rewritten; without one, nothing happens. */
  function SwitchRole(s: AuthState, newRole: SelfRole, codec: Codec): (r: AuthState)
    ensures s.user.None? ==> r == s
    ensures s.user.Some? ==> && r.user.Some?
                             && r.user.value.role == newRole
                             && SameIdentity(r.user.value, s.user.value)
                             && r.slot == Some(codec.serialize(r.user.value))
                             && r.isLoading == s.isLoading
    ensures r.user.Some? ==> r.user.value.role != Admin
  {
    match s.user
    case None => s
    case Some(u) =>
      var updated := u.(role := newRole);
      s.(user := Some(updated), slot := Some(codec.serialize(updated)))
  }

  /** The slot holds exactly the serialized user, or both are absent. */
  predicate Mirrors(s: AuthState, codec: Codec) {
    s.slot == (if s.user.Some? then Some(codec.serialize(s.user.value)) else None)
  }

  /** The operations a page can invoke on the store, with the fault each may meet. */
  datatype Op =
    | LoginOp(credentials: LoginCredentials, now: Timestamp, writeThrows: bool)
    | RegisterOp(data: RegisterData, now: Timestamp, writeThrows: bool)
    | LogoutOp
    | SwitchRoleOp(role: SelfRole)

  predicate Faultless(op: Op) {
    match op
    case LoginOp(_, _, w) => !w
    case RegisterOp(_, _, w) => !w
    case _ => true
  }

  function Apply(s: AuthState, op: Op, codec: Codec): AuthState {
    match op
    case LoginOp(c, now, w) => Login(s, c, now, codec, w).final
    case RegisterOp(d, now, w) => Register(s, d, now, codec, w).final
    case LogoutOp => Logout(s)
    case SwitchRoleOp(r) => SwitchRole(s, r, codec)
  }

  function ApplyAll(s: AuthState, ops: seq<Op>, codec: Codec): AuthState
    decreases |ops|
  {
    if |ops| == 0 then s else ApplyAll(Apply(s, ops[0], codec), ops[1..], codec)
  }

  /** Login, register and logout establish the mirror from any state; switchRole keeps it. */
  lemma OpMirrors(s: AuthState, op: Op, codec: Codec)
    requires Faultless(op)
    requires op.SwitchRoleOp? ==> Mirrors(s, codec)
    ensures Mirrors(Apply(s, op, codec), codec)
  {
  }

  /** From a mirrored state, every fault-free sequence of operations ends mirrored. */
  lemma {:induction false} MirrorsPreserved(s: AuthState, ops: seq<Op>, codec: Codec)
    requires Mirrors(s, codec)
    requires forall i :: 0 <= i < |ops| ==> Faultless(ops[i])
    ensures Mirrors(ApplyAll(s, ops, codec), codec)
    decreases |ops|
  {
    if |ops| > 0 {
      OpMirrors(s, ops[0], codec);
      MirrorsPreserved(Apply(s, ops[0], codec), ops[1..], codec);
    }
  }

  /** A failed storage write breaks the mirror: the new user is held while the slot keeps its old text. */
  lemma FailedLoginBreaksMirror(s: AuthState, credentials: LoginCredentials, now: Timestamp, codec: Codec)
    requires s.slot != Some(codec.serialize(LoginUser(credentials, now)))
    ensures var t := Login(s, credentials, now, codec, true);
            t.outcome.Rejected? && t.final.user.Some? && !Mirrors(t.final, codec)
  {
  }

  /** `logout` twice is `logout` once. */
  lemma LogoutIdempotent(s: AuthState)
    ensures Logout(Logout(s)) == Logout(s)
  {
  }

  /** After `logout`, a fresh page load finds no session. */
  lemma LogoutThenReloadHasNoSession(s: AuthState, codec: Codec)
    ensures var r := Initialize(Mount(Logout(s).slot), codec, false);
            r.user.None? && r.slot.None? && !r.isLoading
  {
  }

  /** A codec that writes a non-empty text and reads back the same user up to timestamps. */
  predicate Restores(codec: Codec, u: User) {
    && codec.serialize(u) != ""
    && codec.parse(codec.serialize(u)).Decoded?
    && codec.parse(codec.serialize(u)).user.Some?
    && var v := codec.parse(codec.serialize(u)).user.value;
       v.id == u.id && v.email == u.email && v.name == u.name && v.phone == u.phone
       && v.role == u.role && v.isVerified == u.isVerified
  }

  /**
   * After a successful login, a fresh page load restores a user with the same
   * identity and role (timestamps come back in whatever form the codec gives).
   */
  lemma LoginThenReloadRestores(s: AuthState, credentials: LoginCredentials, now: Timestamp, codec: Codec)
    requires Restores(codec, LoginUser(credentials, now))
    ensures var r := Initialize(Mount(Login(s, credentials, now, codec, false).final.slot), codec, false);
            && r.user.Some? && r.user.value.email == credentials.email
            && r.user.value.role == Buyer && r.user.value.isVerified && !r.isLoading
  {
  }
}

=== FILE: buyer_dashboard.dfy ===
/** The statistics, status colours and recent list of `src/pages/dashboard/BuyerDashboard.tsx`. */
module BuyerDashboard {
  import opened Types
  import opened Aggregates

  /** The four stat cards; `totalSpent` is the number before locale formatting. */
  datatype Stats = Stats(totalOrders: nat, pending: nat, completed: nat, totalSpent: real)

  function StatsFor(orders: seq<Order>): (s: Stats)
    ensures s.totalOrders == |orders|
    ensures s.pending == CountWithStatus(orders, {Pending})
    ensures s.completed == CountWithStatus(orders, {Completed})
    ensures s.pending + s.completed <= s.totalOrders
    ensures orders == [] ==> s.totalSpent == 0.0
    ensures s.totalSpent == TotalAmount(orders)
  {
    CountDisjointBounded(orders, {Pending}, {Completed});
    Stats(|orders|, CountWithStatus(orders, {Pending}), CountWithStatus(orders, {Completed}), TotalAmount(orders))
  }

  /** Placing one more order adds one to the order count and its amount to the total spent. */
  lemma StatsGrowWithOrder(orders: seq<Order>, o: Order)
    ensures StatsFor(orders + [o]).totalOrders == StatsFor(orders).totalOrders + 1
    ensures StatsFor(orders + [o]).totalSpent == StatsFor(orders).totalSpent + o.totalAmount
  {
    TotalAppend(orders, [o]);
    assert [o][1..] == [];
  }

  const PendingClass := "bg-yellow-100 text-yellow-800"
  const ConfirmedClass := "bg-blue-100 text-blue-800"
  const CompletedClass := "bg-green-100 text-green-800"
  const DefaultClass := "bg-gray-100 text-gray-800"

  /** `getStatusColor`. */
  function StatusColor(status: OrderStatus): string {
    match status
    case Pending => PendingClass
    case Confirmed => ConfirmedClass
    case Completed => CompletedClass
    case _ => DefaultClass
  }

  /** Pending, confirmed and completed get three distinct classes; the other four share the default. */
  lemma StatusColorClasses(s: OrderStatus, t: OrderStatus)
    ensures StatusColor(s) == DefaultClass <==> s !in {Pending, Confirmed, Completed}
    ensures s in {Pending, Confirmed, Completed} && s != t ==> StatusColor(s) != StatusColor(t)
  {
  }

  /** The recent-orders card lists the first three orders, in order. */
  function RecentOrders(orders: seq<Order>): (r: seq<Order>)
    ensures |r| == if |orders| < 3 then |orders| else 3
    ensures forall i :: 0 <= i < |r| ==> r[i] == orders[i]
  {
    FirstThree(orders)
  }
}

=== FILE: contact_page.dfy ===
/** The contact form of `src/pages/ContactPage.tsx`: field edits, the simulated submit, the button. */
module ContactPage {

  datatype ContactForm = ContactForm(name: string, email: string, phone: string, subject: string, message: string)

  datatype PageState = PageState(form: ContactForm, isLoading: bool)

  const EmptyForm := ContactForm("", "", "", "", "")

  /** All five fields empty, not submitting. */
  const InitialState := PageState(EmptyForm, false)

  /** The `name` attribute of each input. */
  datatype Field = Name | Email | Phone | Subject | Message

  function GetField(f: ContactForm, k: Field): string {
    match k
    case Name => f.name
    case Email => f.email
    case Phone => f.phone
    case Subject => f.subject
    case Message => f.message
  }

  /** `handleInputChange`: the named field takes the typed value and no other field changes. */
  function HandleInputChange(s: PageState, k: Field, value: string): (r: PageState)
    ensures GetField(r.form, k) == value
    ensures forall k' :: k' != k ==> GetField(r.form, k') == GetField(s.form, k')
    ensures r.isLoading == s.isLoading
  {
    var f := s.form;
    var f' := match k
      case Name => f.(name := value)
      case Email => f.(email := value)
      case Phone => f.(phone := value)
      case Subject => f.(subject := value)
      case Message => f.(message := value);
    s.(form := f')
  }

  /** The submit handler up to its timer: loading on, form untouched. */
  function BeginSubmit(s: PageState): (r: PageState)
    ensures r.isLoading && r.form == s.form
  {
    s.(isLoading := true)
  }

  /** The timer callback: every field cleared and loading off. */
  function CompleteSubmit(s: PageState): (r: PageState)
    ensures r == InitialState
    ensures forall k :: GetField(r.form, k) == ""
  {
    PageState(EmptyForm, false)
  }

  /** The submit button is disabled exactly while a submission is in flight. */
  function SubmitDisabled(s: PageState): bool {
    s.isLoading
  }

  /** A full submission returns the page to its initial state, and the button is disabled only in between. */
  lemma SubmitRoundTrip(s: PageState)
    ensures SubmitDisabled(BeginSubmit(s))
    ensures CompleteSubmit(BeginSubmit(s)) == InitialState
    ensures !SubmitDisabled(CompleteSubmit(BeginSubmit(s)))
  {
  }

  /** Typing into a field while the submission is in flight is lost when the timer fires. */
  lemma EditsDuringSubmitAreCleared(s: PageState, k: Field, value: string)
    ensures CompleteSubmit(HandleInputChange(BeginSubmit(s), k, value)) == InitialState
  {
  }
}

=== FILE: footer.dfy ===
/**
 * The category column of `src/components/layout/Footer.tsx`: a list of
 * names, each rendered as a link to the products page.
 */
module Footer {
  import opened Text
  import LandingPage

  const CategoryNames: seq<string> :=
    ["Fasteners", "Raw Materials", "Tools & Equipment", "Machinery", "Electrical Items", "Plumbing"]

  /** The link of a footer category entry. */
  function CategoryLink(name: string): (link: string)
    ensures |link| >= 19 && link[..19] == "/products?category="
    ensures NoSpace(link[19..]) && NoUpper(link[19..])
  {
    SlugShape(name);
    "/products?category=" + Slugify(name)
  }

  /** The footer builds a link from a name exactly as a landing-page card does. */
  lemma SameLinkAsLanding(name: string)
    ensures CategoryLink(name) == LandingPage.CategoryLink(name)
  {
    assert LandingPage.LinkPrefix == "/products?category=";
  }

  /** The footer lists the landing page's six names, in the same order. */
  lemma SameNamesAsLanding()
    ensures |CategoryNames| == |LandingPage.CategoryNames| == 6
    ensures forall i :: 0 <= i < |CategoryNames| ==> CategoryNames[i] == LandingPage.CategoryNames[i]
  {
  }

  /** So the i-th footer link is the i-th landing-page card link. */
  lemma LinksAgreeWithLanding(i: nat)
    requires i < |CategoryNames|
    ensures CategoryLink(CategoryNames[i]) == LandingPage.CategoryLink(LandingPage.CategoryNames[i])
  {
    SameNamesAsLanding();
    SameLinkAsLanding(CategoryNames[i]);
  }
}

=== FILE: header.dfy ===
/**
 * The header of `src/components/layout/Header.tsx`: its two menu flags, the
 * logout and dashboard-switch handlers, and which links it shows.
 */
module Header {
  import opened Wrappers
  import opened Types
  import opened AuthContext
  import opened ProtectedRoute
  import opened AppRoutes

  datatype Menus = Menus(mobileMenuOpen: bool, userMenuOpen: bool)

  /** Both menus start closed. */
  const InitialMenus := Menus(false, false)

  /** The store after a handler, the menus after it, and where it navigated. */
  datatype Effect = Effect(auth: AuthState, menus: Menus, navigatedTo: string)

  /** The path of the dashboard for a role. */
  function DashboardPath(r: Role): string {
    "/dashboard/" + RoleName(r)
  }

  /** `handleLogout`: log out, go home, close the user menu. */
  function HandleLogout(s: AuthState, m: Menus): (e: Effect)
    ensures e.auth == Logout(s)
    ensures e.navigatedTo == "/"
    ensures !e.menus.userMenuOpen && e.menus.mobileMenuOpen == m.mobileMenuOpen
  {
    Effect(Logout(s), m.(userMenuOpen := false), "/")
  }

  /** `handleDashboardSwitch`: switch the role, go to that role's dashboard, close the user menu. */
  function HandleDashboardSwitch(s: AuthState, m: Menus, r: SelfRole, codec: Codec): (e: Effect)
    ensures e.auth == SwitchRole(s, r, codec)
    ensures e.navigatedTo == DashboardPath(r)
    ensures !e.menus.userMenuOpen && e.menus.mobileMenuOpen == m.mobileMenuOpen
  {
    Effect(SwitchRole(s, r, codec), m.(userMenuOpen := false), DashboardPath(r))
  }

  /** The buyer and seller dashboards are the routes at positions 9 and 10 of the table. */
  lemma DashboardRoute(r: SelfRole)
    ensures r == Buyer ==> FindRoute(DashboardPath(r)) == Some(Routes[9])
    ensures r == Seller ==> FindRoute(DashboardPath(r)) == Some(Routes[10])
  {
    if r == Buyer {
      assert DashboardPath(r) == Routes[9].path;
      LookupGuarded(9);
    } else {
      assert DashboardPath(r) == Routes[10].path;
      LookupGuarded(10);
    }
  }

  /**
   * The route a dashboard switch lands on is guarded and lists the new role,
   * so a strict guard would let the switched user through as well.
   */
  lemma SwitchLandsOnAdmittingRoute(s: AuthState, m: Menus, r: SelfRole, codec: Codec)
    ensures var e := HandleDashboardSwitch(s, m, r, codec);
            && FindRoute(e.navigatedTo).Some?
            && FindRoute(e.navigatedTo).value.guard.Some?
            && StrictlyAdmits(r, FindRoute(e.navigatedTo).value.guard.value)
  {
    DashboardRoute(r);
  }

  /** With a signed-in user and loading finished, a dashboard switch shows the dashboard. */
  lemma SwitchShowsDashboard(s: AuthState, m: Menus, r: SelfRole, codec: Codec)
    requires s.user.Some? && !s.isLoading
    ensures var e := HandleDashboardSwitch(s, m, r, codec);
            VisitPath(e.navigatedTo, e.auth.isLoading, e.auth.user) == Guarded(Children(false))
  {
    DashboardRoute(r);
  }

  /**
   * Without a user the switch changes nothing in the store, and the dashboard
   * redirects to `/login`. The header renders the switch buttons only for a
   * signed-in user (src/components/layout/Header.tsx:68-100), so no click
   * reaches this case; it records what the handler itself would do.
   */
  lemma SwitchWithoutUserRedirects(s: AuthState, m: Menus, r: SelfRole, codec: Codec)
    requires s.user.None? && !s.isLoading
    ensures var e := HandleDashboardSwitch(s, m, r, codec);
            e.auth == s && VisitPath(e.navigatedTo, e.auth.isLoading, e.auth.user) == Guarded(Redirect("/login", true))
  {
    DashboardRoute(r);
  }

  /** What the header shows for a session and menu state. */
  datatype View = View(
    loginRegisterLinks: bool,
    userMenuButton: bool,
    userMenuPanel: bool,
    mobileNav: bool,
    mobileLoginRegisterLinks: bool)

  function Render(user: Option<User>, m: Menus): (v: View)
    ensures v.loginRegisterLinks <==> user.None?
    ensures v.userMenuButton <==> user.Some?
    ensures v.loginRegisterLinks != v.userMenuButton
    ensures v.userMenuPanel <==> user.Some? && m.userMenuOpen
    ensures v.userMenuPanel ==> v.userMenuButton
    ensures v.mobileNav <==> m.mobileMenuOpen
    ensures v.mobileLoginRegisterLinks <==> m.mobileMenuOpen && user.None?
  {
    View(
      loginRegisterLinks := user.None?,
      userMenuButton := user.Some?,
      userMenuPanel := user.Some? && m.userMenuOpen,
      mobileNav := m.mobileMenuOpen,
      mobileLoginRegisterLinks := m.mobileMenuOpen && user.None?)
  }

  function ToggleUserMenu(m: Menus): (r: Menus)
    ensures r.userMenuOpen != m.userMenuOpen && r.mobileMenuOpen == m.mobileMenuOpen
  {
    m.(userMenuOpen := !m.userMenuOpen)
  }

  function ToggleMobileMenu(m: Menus): (r: Menus)
    ensures r.mobileMenuOpen != m.mobileMenuOpen && r.userMenuOpen == m.userMenuOpen
  {
    m.(mobileMenuOpen := !m.mobileMenuOpen)
  }

  /** The header first renders with both menus closed: no user panel and no mobile navigation. */
  lemma InitialView(user: Option<User>)
    ensures !Render(user, InitialMenus).userMenuPanel && !Render(user, InitialMenus).mobileNav
    ensures Render(user, InitialMenus).loginRegisterLinks <==> user.None?
  {
  }

  /** For a signed-in user, toggling the user menu shows the panel iff it was hidden. */
  lemma ToggleFlipsPanel(u: User, m: Menus)
    ensures Render(Some(u), ToggleUserMenu(m)).userMenuPanel != Render(Some(u), m).userMenuPanel
    ensures Render(Some(u), ToggleUserMenu(m)).mobileNav == Render(Some(u), m).mobileNav
  {
  }

  /** After the logout handler the header offers Login and Register and shows no user menu. */
  lemma LogoutView(s: AuthState, m: Menus)
    ensures Render(HandleLogout(s, m).auth.user, HandleLogout(s, m).menus).loginRegisterLinks
    ensures !Render(HandleLogout(s, m).auth.user, HandleLogout(s, m).menus).userMenuButton
    ensures !Render(HandleLogout(s, m).auth.user, HandleLogout(s, m).menus).userMenuPanel
  {
  }

  /** The links of the mobile menu: the four page links, then Login and Register for a visitor. */
  function MobileLinks(user: Option<User>): (links: seq<string>)
    ensures |links| == if user.None? then 6 else 4
    ensures links[..4] == ["/", "/products", "/about", "/contact"]
    ensures user.None? ==> links[4..] == ["/login", "/register"]
    ensures ("/login" in links) <==> user.None?
    ensures ("/register" in links) <==> user.None?
  {
    ["/", "/products", "/about", "/contact"] + (if user.None? then ["/login", "/register"] else [])
  }

  /** Clicking any link of the mobile menu: navigate there and close the mobile menu. */
  function ClickMobileLink(user: Option<User>, m: Menus, i: nat): (e: (Menus, string))
    requires i < |MobileLinks(user)|
    ensures !e.0.mobileMenuOpen && e.0.userMenuOpen == m.userMenuOpen
    ensures e.1 == MobileLinks(user)[i] && e.1 in MobileLinks(user)
  {
    (m.(mobileMenuOpen := false), MobileLinks(user)[i])
  }

  /** Every mobile link leads to a public route. */
  lemma MobileLinksArePublic(user: Option<User>, i: nat)
    requires i < |MobileLinks(user)|
    ensures VisitPath(MobileLinks(user)[i], false, user).PublicPage?
  {
    var k := if i < 4 then [0, 3, 1, 2][i] else i + 1;
    assert Routes[k].path == MobileLinks(user)[i];
    var p := Routes[k].path;
    // Each earlier pattern differs from `p` in length or in its second character.
    forall j | 0 <= j < k
      ensures Routes[j].path != p
    {
      var q := Routes[j].path;
      assert |q| != |p| || q[1] != p[1];
    }
    PublicAt(k, user);
  }
}

=== FILE: landing_page.dfy ===
/**
 * The rules of `src/pages/LandingPage.tsx` that are not layout: the category
 * links, the connectors between the "how it works" steps, and the star row
 * of a testimonial.
 */
module LandingPage {
  import opened Wrappers
  import opened Types
  import opened Text

  const CategoryNames: seq<string> :=
    ["Fasteners", "Raw Materials", "Tools & Equipment", "Machinery", "Electrical Items", "Plumbing"]

  const LinkPrefix := "/products?category="

  /** The link of a category card. */
  function CategoryLink(name: string): (link: string)
    ensures |link| >= |LinkPrefix| && link[..|LinkPrefix|] == LinkPrefix
    ensures link[|LinkPrefix|..] == Slugify(name)
  {
    LinkPrefix + Slugify(name)
  }

  /*
   * The slug of each multi-word card name is derived in three steps: the name
   * as its words joined by spaces, the general word lemma of `Text`, and the
   * lower-case form of each word. Each step is its own lemma so that the
   * verifier sees one literal at a time and never evaluates the slug
   * function on a whole literal name.
   */

  /** "Tools & Equipment" slugs to its three lowered words joined by dashes. */
  lemma ToolsSlug(name: string)
    requires name == "Tools & Equipment"
    ensures Slugify(name) == "tools" + "-" + "&" + "-" + "equipment"
  {
    var a, b, c := "Tools", "&", "Equipment";
    ToolsWords(name);
    SlugOfThreeWords(name, a, b, c);
    ToolsWordsLower(a, b, c);
  }

  lemma ToolsWords(name: string)
    requires name == "Tools & Equipment"
    ensures name == "Tools" + " " + "&" + " " + "Equipment"
  {
  }

  lemma ToolsWordsLower(a: string, b: string, c: string)
    requires a == "Tools" && b == "&" && c == "Equipment"
    ensures Lower(a) == "tools" && Lower(b) == "&" && Lower(c) == "equipment"
  {
    LowerPointwise(a);
    LowerPointwise(b);
    LowerPointwise(c);
  }

  /** "Electrical Items" slugs to its two lowered words joined by a dash. */
  lemma ElectricalSlug(name: string)
    requires name == "Electrical Items"
    ensures Slugify(name) == "electrical" + "-" + "items"
  {
    var a, b := "Electrical", "Items";
    ElectricalWords(name);
    SlugOfTwoWords(name, a, b);
    ElectricalWordsLower(a, b);
  }

  lemma ElectricalWords(name: string)
    requires name == "Electrical Items"
    ensures name == "Electrical" + " " + "Items"
  {
  }

  lemma ElectricalWordsLower(a: string, b: string)
    requires a == "Electrical" && b == "Items"
    ensures Lower(a) == "electrical" && Lower(b) == "items"
  {
    LowerPointwise(a);
    LowerPointwise(b);
  }

  /** "Raw Materials" slugs to its two lowered words joined by a dash. */
  lemma RawMaterialsSlug(name: string)
    requires name == "Raw Materials"
    ensures Slugify(name) == "raw" + "-" + "materials"
  {
    var a, b := "Raw", "Materials";
    RawMaterialsWords(name);
    SlugOfTwoWords(name, a, b);
    RawMaterialsWordsLower(a, b);
  }

  lemma RawMaterialsWords(name: string)
    requires name == "Raw Materials"
    ensures name == "Raw" + " " + "Materials"
  {
  }

  lemma RawMaterialsWordsLower(a: string, b: string)
    requires a == "Raw" && b == "Materials"
    ensures Lower(a) == "raw" && Lower(b) == "materials"
  {
    LowerPointwise(a);
    LowerPointwise(b);
  }

  /** A one-word name slugs to its lower-case form. */
  lemma OneWordSlug(name: string)
    requires NoSpace(name)
    ensures Slugify(name) == Lower(name)
  {
    LowerNoSpace(name);
    CollapseShape(Lower(name));
  }

  /** "Tools & Equipment" slugs to `tools-&-equipment`, which no category has. */
  lemma ToolsMisses(name: string)
    requires name == "Tools & Equipment"
    ensures Slugify(name) == "tools-&-equipment"
    ensures !IsCategoryValue(Slugify(name))
  {
    ToolsSlug(name);
  }

  /** "Electrical Items" slugs to `electrical-items`, which no category has. */
  lemma ElectricalMisses(name: string)
    requires name == "Electrical Items"
    ensures Slugify(name) == "electrical-items"
    ensures !IsCategoryValue(Slugify(name))
  {
    ElectricalSlug(name);
    ElectricalIsNoCategory();
  }

  lemma ElectricalIsNoCategory()
    ensures forall c :: CategoryValue(c) != "electrical" + "-" + "items"
  {
    var slug := "electrical" + "-" + "items";
    assert |slug| == 16 && slug[0] == 'e';
    forall c
      ensures CategoryValue(c) != slug
    {
      assert |CategoryValue(c)| != 16 || CategoryValue(c)[0] != 'e';
    }
  }

  /** Two of the six card names slug to strings that are not `ProductCategory` values. */
  lemma SlugsMissCategories(names: seq<string>)
    requires names == CategoryNames
    ensures Slugify(names[2]) == "tools-&-equipment"
    ensures Slugify(names[4]) == "electrical-items"
    ensures !IsCategoryValue(Slugify(names[2])) && !IsCategoryValue(Slugify(names[4]))
  {
    assert names[2] == "Tools & Equipment" && names[4] == "Electrical Items";
    ToolsMisses(names[2]);
    ElectricalMisses(names[4]);
  }

  /** The other four card names slug to the category values of the same name. */
  lemma SlugsHitCategories(names: seq<string>)
    requires names == CategoryNames
    ensures Slugify(names[0]) == CategoryValue(Fasteners)
    ensures Slugify(names[1]) == CategoryValue(RawMaterials)
    ensures Slugify(names[3]) == CategoryValue(Machinery)
    ensures Slugify(names[5]) == CategoryValue(Plumbing)
  {
    assert names[0] == "Fasteners" && names[1] == "Raw Materials";
    assert names[3] == "Machinery" && names[5] == "Plumbing";
    FastenersHits(names[0]);
    RawMaterialsHits(names[1]);
    MachineryHits(names[3]);
    PlumbingHits(names[5]);
  }

  lemma FastenersHits(name: string)
    requires name == "Fasteners"
    ensures Slugify(name) == CategoryValue(Fasteners)
  {
    OneWordSlug(name);
    LowerPointwise(name);
  }

  lemma RawMaterialsHits(name: string)
    requires name == "Raw Materials"
    ensures Slugify(name) == CategoryValue(RawMaterials)
  {
    RawMaterialsSlug(name);
  }

  lemma MachineryHits(name: string)
    requires name == "Machinery"
    ensures Slugify(name) == CategoryValue(Machinery)
  {
    OneWordSlug(name);
    LowerPointwise(name);
  }

  lemma PlumbingHits(name: string)
    requires name == "Plumbing"
    ensures Slugify(name) == CategoryValue(Plumbing)
  {
    OneWordSlug(name);
    LowerPointwise(name);
  }

  /** A connector follows every step but the last. */
  function ConnectorShown(index: nat, steps: nat): bool {
    index < steps - 1
  }

  /** The number of connectors among the first `k` steps. */
  function ShownBelow(k: nat, steps: nat): nat {
    if k == 0 then 0 else ShownBelow(k - 1, steps) + (if ConnectorShown(k - 1, steps) then 1 else 0)
  }

  /** The number of connectors rendered for `steps` steps. */
  function ConnectorCount(steps: nat): nat {
    ShownBelow(steps, steps)
  }

  lemma {:induction false} ShownBelowCount(k: nat, steps: nat)
    requires k <= steps
    ensures ShownBelow(k, steps) == if k < steps then k else if steps == 0 then 0 else steps - 1
  {
    if k > 0 {
      ShownBelowCount(k - 1, steps);
    }
  }

  /** Every step but the last is followed by a connector, so `n` steps have `n - 1` connectors. */
  lemma ConnectorsBetweenSteps(steps: nat)
    ensures forall i :: 0 <= i < steps ==> (ConnectorShown(i, steps) <==> i != steps - 1)
    ensures ConnectorCount(steps) == if steps == 0 then 0 else steps - 1
  {
    ShownBelowCount(steps, steps);
  }

  /**
   * `[...Array(rating)]`: one star per unit of rating. `Array(n)` throws a
   * RangeError for a negative length or one of 2^32 and above, which the
   * model reports as `None`.
   */
  function StarCount(rating: int): (r: Option<nat>)
    ensures r.Some? <==> 0 <= rating < 0x1_0000_0000
    ensures r.Some? ==> r.value == rating
  {
    if 0 <= rating < 0x1_0000_0000 then Some(rating) else None
  }
}

=== FILE: product_detail_page.dfy ===
/**
 * The quantity stepper and image selection of `src/pages/ProductDetailPage.tsx`.
 * `product!.stock` is the `stock` argument: the stepper is only rendered once
 * the product has loaded.
 */
module ProductDetailPage {

  /** `quantity` starts at 1 whatever the stock. */
  const InitialQuantity := 1

  /** `handleQuantityChange(delta)`: take the new quantity only when it stays within 1..stock. */
  function HandleQuantityChange(quantity: int, stock: int, delta: int): (r: int)
    ensures r == quantity || r == quantity + delta
    ensures r == quantity + delta <==> delta == 0 || 1 <= quantity + delta <= stock
    ensures 1 <= quantity <= stock ==> 1 <= r <= stock
  {
    var next := quantity + delta;
    if next >= 1 && next <= stock then next else quantity
  }

  /** A run of stepper clicks. */
  function ApplyChanges(quantity: int, stock: int, deltas: seq<int>): int
    decreases |deltas|
  {
    if |deltas| == 0 then quantity
    else ApplyChanges(HandleQuantityChange(quantity, stock, deltas[0]), stock, deltas[1..])
  }

  /** Once within 1..stock, the quantity stays there under any run of clicks. */
  lemma {:induction false} QuantityStaysInRange(quantity: int, stock: int, deltas: seq<int>)
    requires 1 <= quantity <= stock
    ensures 1 <= ApplyChanges(quantity, stock, deltas) <= stock
    decreases |deltas|
  {
    if |deltas| > 0 {
      QuantityStaysInRange(HandleQuantityChange(quantity, stock, deltas[0]), stock, deltas[1..]);
    }
  }

  /** With nothing in stock every click is refused and the quantity stays at its initial 1. */
  lemma {:induction false} NoStockRejectsAll(stock: int, deltas: seq<int>)
    requires stock <= 0
    ensures ApplyChanges(InitialQuantity, stock, deltas) == InitialQuantity
    decreases |deltas|
  {
    if |deltas| > 0 {
      NoStockRejectsAll(stock, deltas[1..]);
    }
  }

  /** Which controls are disabled. */
  datatype Controls = Controls(minusDisabled: bool, plusDisabled: bool, addToCartDisabled: bool)

  function ControlsFor(quantity: int, stock: int): Controls {
    Controls(quantity <= 1, quantity >= stock, stock == 0)
  }

  /**
   * Within 1..stock an enabled button always takes effect and a disabled one
   * would be refused: the disabled flags are exactly the stepper's guard.
   */
  lemma ControlsMatchGuard(quantity: int, stock: int)
    requires 1 <= quantity <= stock
    ensures !ControlsFor(quantity, stock).minusDisabled <==> HandleQuantityChange(quantity, stock, -1) == quantity - 1
    ensures !ControlsFor(quantity, stock).plusDisabled <==> HandleQuantityChange(quantity, stock, 1) == quantity + 1
    ensures !ControlsFor(quantity, stock).addToCartDisabled
  {
  }

  /** Add-to-cart is disabled exactly when stock is zero; `+` is then disabled too. */
  lemma AddToCartDisabledIffNoStock(quantity: int, stock: int)
    ensures ControlsFor(quantity, stock).addToCartDisabled <==> stock == 0
    ensures stock == 0 && quantity >= 0 ==> ControlsFor(quantity, stock).plusDisabled
  {
  }

  /** A thumbnail click selects that thumbnail's index. */
  function SelectThumbnail(images: seq<string>, index: nat): (selected: nat)
    requires index < |images|
    ensures selected < |images|
  {
    index
  }

  /** A run of thumbnail clicks, each on an existing thumbnail, from the initial selection 0. */
  function SelectAll(images: seq<string>, selected: nat, clicks: seq<nat>): nat
    requires forall i :: 0 <= i < |clicks| ==> clicks[i] < |images|
    decreases |clicks|
  {
    if |clicks| == 0 then selected
    else SelectAll(images, SelectThumbnail(images, clicks[0]), clicks[1..])
  }

  /** After at least one click the selection indexes an image; before any, it is the initial 0. */
  lemma {:induction false} SelectionInRange(images: seq<string>, clicks: seq<nat>)
    requires forall i :: 0 <= i < |clicks| ==> clicks[i] < |images|
    ensures |clicks| == 0 ==> SelectAll(images, 0, clicks) == 0
    ensures |clicks| > 0 ==> SelectAll(images, 0, clicks) == clicks[|clicks| - 1] < |images|
  {
    if |clicks| > 0 {
      LastClickWins(images, clicks[0], clicks[1..]);
    }
  }

  lemma {:induction false} LastClickWins(images: seq<string>, selected: nat, clicks: seq<nat>)
    requires forall i :: 0 <= i < |clicks| ==> clicks[i] < |images|
    ensures |clicks| == 0 ==> SelectAll(images, selected, clicks) == selected
    ensures |clicks| > 0 ==> SelectAll(images, selected, clicks) == clicks[|clicks| - 1]
    decreases |clicks|
  {
    if |clicks| > 0 {
      LastClickWins(images, clicks[0], clicks[1..]);
    }
  }
}

=== FILE: products_page.dfy ===
/**
 * The catalog filter of `src/pages/ProductsPage.tsx`: seven optional checks
 * guarded by JavaScript truthiness, `handleFilterChange` and `clearFilters`.
 * A present `0`, `''` or `false` switches its check off exactly like an
 * absent value. `sellerId` is a filter field that the predicate never reads.
 */
module ProductsPage {
  import opened Wrappers
  import opened Types
  import opened Text
  import opened Sequences

  /** Truthiness of an optional string. */
  predicate TextOn(o: Option<string>) {
    o.Some? && o.value != ""
  }

  /** Truthiness of an optional number (NaN is not modelled). */
  predicate NumberOn(o: Option<real>) {
    o.Some? && o.value != 0.0
  }

  /** Truthiness of an optional flag. */
  predicate FlagOn(o: Option<bool>) {
    o.Some? && o.value
  }

  /** The filter callback, one early return per check, in the source's order. */
  predicate Keeps(f: ProductFilters, p: Product) {
    if f.category.Some? && p.category != f.category.value then false
    else if TextOn(f.subcategory) && !IncludesIgnoringCase(p.subcategory, f.subcategory.value) then false
    else if NumberOn(f.minPrice) && p.price < f.minPrice.value then false
    else if NumberOn(f.maxPrice) && p.price > f.maxPrice.value then false
    else if NumberOn(f.rating) && p.rating < f.rating.value then false
    else if FlagOn(f.inStock) && p.stock == 0 then false
    else if TextOn(f.search) && !IncludesIgnoringCase(p.name, f.search.value) then false
    else true
  }

  /** The same filter stated as one conjunction: each switched-on check must pass. */
  predicate PassesActiveChecks(f: ProductFilters, p: Product) {
    && (f.category.Some? ==> p.category == f.category.value)
    && (TextOn(f.subcategory) ==> IncludesIgnoringCase(p.subcategory, f.subcategory.value))
    && (NumberOn(f.minPrice) ==> p.price >= f.minPrice.value)
    && (NumberOn(f.maxPrice) ==> p.price <= f.maxPrice.value)
    && (NumberOn(f.rating) ==> p.rating >= f.rating.value)
    && (FlagOn(f.inStock) ==> p.stock != 0)
    && (TextOn(f.search) ==> IncludesIgnoringCase(p.name, f.search.value))
  }

  /** A product is kept exactly when it passes every switched-on check. */
  lemma KeepsIffPasses(f: ProductFilters, p: Product)
    ensures Keeps(f, p) <==> PassesActiveChecks(f, p)
  {
  }

  /** `products.filter(...)`. */
  function FilterProducts(ps: seq<Product>, f: ProductFilters): (r: seq<Product>)
    ensures |r| <= |ps|
    ensures forall i :: 0 <= i < |r| ==> Keeps(f, r[i]) && r[i] in ps
    ensures forall p :: p in ps && Keeps(f, p) ==> p in r
    decreases |ps|
  {
    if |ps| == 0 then []
    else (if Keeps(f, ps[0]) then [ps[0]] else []) + FilterProducts(ps[1..], f)
  }

  /** The filter keeps every copy of a passing product and no copy of any other. */
  lemma {:induction false} FilterCopies(ps: seq<Product>, f: ProductFilters)
    ensures forall p :: multiset(FilterProducts(ps, f))[p]
                     == (if Keeps(f, p) then multiset(ps)[p] else 0)
    decreases |ps|
  {
    if |ps| > 0 {
      var rest := FilterProducts(ps[1..], f);
      FilterCopies(ps[1..], f);
      assert multiset(ps) == multiset([ps[0]]) + multiset(ps[1..]) by {
        assert ps == [ps[0]] + ps[1..];
      }
      if Keeps(f, ps[0]) {
        assert FilterProducts(ps, f) == [ps[0]] + rest;
        assert multiset(FilterProducts(ps, f)) == multiset([ps[0]]) + multiset(rest);
      } else {
        assert FilterProducts(ps, f) == rest;
      }
    }
  }

  /** The filtered list is an order-preserving subsequence of the catalog. */
  lemma {:induction false} FilterIsSubsequence(ps: seq<Product>, f: ProductFilters)
    ensures IsSubsequence(FilterProducts(ps, f), ps)
    decreases |ps|
  {
    if |ps| > 0 {
      FilterIsSubsequence(ps[1..], f);
      var rest := FilterProducts(ps[1..], f);
      if Keeps(f, ps[0]) {
        assert FilterProducts(ps, f) == [ps[0]] + rest;
        assert ([ps[0]] + rest)[1..] == rest;
      } else {
        assert FilterProducts(ps, f) == rest;
        assert |rest| > 0 ==> rest[0] != ps[0];
      }
    }
  }

  /** A list whose every product passes is returned unchanged. */
  lemma {:induction false} FilterKeepsPassing(ps: seq<Product>, f: ProductFilters)
    requires forall i :: 0 <= i < |ps| ==> Keeps(f, ps[i])
    ensures FilterProducts(ps, f) == ps
    decreases |ps|
  {
    if |ps| > 0 {
      FilterKeepsPassing(ps[1..], f);
      assert [ps[0]] + ps[1..] == ps;
    }
  }

  /** Filtering the filtered list again with the same filters changes nothing. */
  lemma FilterIdempotent(ps: seq<Product>, f: ProductFilters)
    ensures FilterProducts(FilterProducts(ps, f), f) == FilterProducts(ps, f)
  {
    FilterKeepsPassing(FilterProducts(ps, f), f);
  }

  /** The filters as first set and as `clearFilters` sets them. */
  const ClearedFilters := ProductFilters(
    category := None, subcategory := Some(""), minPrice := None, maxPrice := None,
    rating := None, inStock := None, sellerId := None, search := Some(""))

  /** `clearFilters`: afterwards every product passes and the list shows the whole catalog. */
  lemma ClearShowsEverything(ps: seq<Product>)
    ensures forall p :: Keeps(ClearedFilters, p)
    ensures FilterProducts(ps, ClearedFilters) == ps
  {
    FilterKeepsPassing(ps, ClearedFilters);
  }

  /** A present `0`, `''` or `false` filter value acts exactly like an absent one. */
  lemma FalsyValuesDisable(f: ProductFilters, p: Product)
    ensures Keeps(f.(minPrice := Some(0.0)), p) == Keeps(f.(minPrice := None), p)
    ensures Keeps(f.(maxPrice := Some(0.0)), p) == Keeps(f.(maxPrice := None), p)
    ensures Keeps(f.(rating := Some(0.0)), p) == Keeps(f.(rating := None), p)
    ensures Keeps(f.(subcategory := Some("")), p) == Keeps(f.(subcategory := None), p)
    ensures Keeps(f.(search := Some("")), p) == Keeps(f.(search := None), p)
    ensures Keeps(f.(inStock := Some(false)), p) == Keeps(f.(inStock := None), p)
  {
  }

  /** The in-stock filter removes exactly the products whose stock is zero. */
  lemma InStockRemovesOnlyZeroStock(f: ProductFilters, p: Product)
    ensures Keeps(f.(inStock := Some(true)), p) <==> Keeps(f.(inStock := None), p) && p.stock != 0
  {
  }

  /** `sellerId` never changes which products are kept. */
  lemma SellerIdIgnored(f: ProductFilters, p: Product, seller: Option<string>)
    ensures Keeps(f.(sellerId := seller), p) == Keeps(f, p)
  {
  }

  /** Subcategory and search text match regardless of letter case. */
  lemma TextFiltersIgnoreCase(f: ProductFilters, p: Product, q: string)
    ensures Keeps(f.(search := Some(Lower(q))), p) == Keeps(f.(search := Some(q)), p)
    ensures Keeps(f.(subcategory := Some(Lower(q))), p) == Keeps(f.(subcategory := Some(q)), p)
  {
    LowerIdempotent(q);
  }

  /** The keys of `ProductFilters` and the values `handleFilterChange` can store under them. */
  datatype FilterKey =
    | CategoryKey | SubcategoryKey | MinPriceKey | MaxPriceKey
    | RatingKey | InStockKey | SellerIdKey | SearchKey

  datatype FilterValue =
    | CategoryValue(category: Option<ProductCategory>)
    | TextValue(text: Option<string>)
    | NumberValue(number: Option<real>)
    | FlagValue(flag: Option<bool>)

  /** The value has the type the key's field declares. */
  predicate Fits(k: FilterKey, v: FilterValue) {
    match k
    case CategoryKey => v.CategoryValue?
    case SubcategoryKey | SellerIdKey | SearchKey => v.TextValue?
    case MinPriceKey | MaxPriceKey | RatingKey => v.NumberValue?
    case InStockKey => v.FlagValue?
  }

  function Get(f: ProductFilters, k: FilterKey): (v: FilterValue)
    ensures Fits(k, v)
  {
    match k
    case CategoryKey => CategoryValue(f.category)
    case SubcategoryKey => TextValue(f.subcategory)
    case MinPriceKey => NumberValue(f.minPrice)
    case MaxPriceKey => NumberValue(f.maxPrice)
    case RatingKey => NumberValue(f.rating)
    case InStockKey => FlagValue(f.inStock)
    case SellerIdKey => TextValue(f.sellerId)
    case SearchKey => TextValue(f.search)
  }

  /** `handleFilterChange(key, value)`: the key takes the value and no other key changes. */
  function HandleFilterChange(f: ProductFilters, k: FilterKey, v: FilterValue): (r: ProductFilters)
    requires Fits(k, v)
    ensures Get(r, k) == v
    ensures forall k' :: k' != k ==> Get(r, k') == Get(f, k')
  {
    match k
    case CategoryKey => f.(category := v.category)
    case SubcategoryKey => f.(subcategory := v.text)
    case MinPriceKey => f.(minPrice := v.number)
    case MaxPriceKey => f.(maxPrice := v.number)
    case RatingKey => f.(rating := v.number)
    case InStockKey => f.(inStock := v.flag)
    case SellerIdKey => f.(sellerId := v.text)
    case SearchKey => f.(search := v.text)
  }

  /** Two filter records that agree on every key are the same record. */
  lemma GetDetermines(f: ProductFilters, g: ProductFilters)
    requires forall k :: Get(f, k) == Get(g, k)
    ensures f == g
  {
    assert Get(f, CategoryKey) == Get(g, CategoryKey);
    assert Get(f, SubcategoryKey) == Get(g, SubcategoryKey);
    assert Get(f, MinPriceKey) == Get(g, MinPriceKey);
    assert Get(f, MaxPriceKey) == Get(g, MaxPriceKey);
    assert Get(f, RatingKey) == Get(g, RatingKey);
    assert Get(f, InStockKey) == Get(g, InStockKey);
    assert Get(f, SellerIdKey) == Get(g, SellerIdKey);
    assert Get(f, SearchKey) == Get(g, SearchKey);
  }

  /** Setting a key to the value it already holds changes nothing. */
  lemma ChangeToSameValue(f: ProductFilters, k: FilterKey)
    ensures HandleFilterChange(f, k, Get(f, k)) == f
  {
    GetDetermines(HandleFilterChange(f, k, Get(f, k)), f);
  }

  /** The "Showing n of m products" counts: n never exceeds m. */
  lemma ShowingCountBounded(ps: seq<Product>, f: ProductFilters)
    ensures |FilterProducts(ps, f)| <= |ps|
    ensures |FilterProducts(ps, f)| == |ps| <==> forall i :: 0 <= i < |ps| ==> Keeps(f, ps[i])
  {
    if forall i :: 0 <= i < |ps| ==> Keeps(f, ps[i]) {
      FilterKeepsPassing(ps, f);
    } else {
      DropShortens(ps, f);
    }
  }

  /** If some product fails, the filtered list is strictly shorter. */
  lemma {:induction false} DropShortens(ps: seq<Product>, f: ProductFilters)
    requires exists i :: 0 <= i < |ps| && !Keeps(f, ps[i])
    ensures |FilterProducts(ps, f)| < |ps|
    decreases |ps|
  {
    if Keeps(f, ps[0]) {
      var i :| 0 <= i < |ps| && !Keeps(f, ps[i]);
      assert ps[1..][i - 1] == ps[i];
      DropShortens(ps[1..], f);
    }
  }
}

=== FILE: profile_page.dfy ===
/**
 * The form state of `src/pages/ProfilePage.tsx`: the initial profile data,
 * the password-change submit, and the preference switches.
 */
module ProfilePage {
  import opened Wrappers
  import opened Types

  datatype ProfileData = ProfileData(name: string, email: string, phone: string, company: string, address: string)

  /** `user?.name || ''` and its siblings; company and address start empty. */
  function InitialProfile(user: Option<User>): (d: ProfileData)
    ensures user.None? ==> d == ProfileData("", "", "", "", "")
    ensures user.Some? ==> d.name == user.value.name && d.email == user.value.email && d.phone == user.value.phone
    ensures d.company == "" && d.address == ""
  {
    match user
    case None => ProfileData("", "", "", "", "")
    case Some(u) => ProfileData(u.name, u.email, u.phone, "", "")
  }

  datatype SecurityData = SecurityData(currentPassword: string, newPassword: string, confirmPassword: string)

  const EmptySecurity := SecurityData("", "", "")

  datatype NotificationType = Info | Success | Warning | Error

  datatype Notification = Notification(title: string, message: string, kind: NotificationType)

  /** `handleSecuritySubmit`: the form after submitting and the notification raised. */
  function HandleSecuritySubmit(d: SecurityData): (r: (SecurityData, Notification))
    ensures d.newPassword != d.confirmPassword ==> r.0 == d && r.1.kind == Error
    ensures d.newPassword == d.confirmPassword ==> r.0 == EmptySecurity && r.1.kind == Success
  {
    if d.newPassword != d.confirmPassword then
      (d, Notification("Error", "New passwords do not match.", Error))
    else
      (EmptySecurity, Notification("Password Changed", "Your password has been changed successfully.", Success))
  }

  /** The current password is never checked: it changes neither the outcome nor the notification. */
  lemma CurrentPasswordIgnored(d: SecurityData, current: string)
    ensures HandleSecuritySubmit(d.(currentPassword := current)).1 == HandleSecuritySubmit(d).1
    ensures d.newPassword == d.confirmPassword ==>
              HandleSecuritySubmit(d.(currentPassword := current)).0 == HandleSecuritySubmit(d).0
  {
  }

  /** An empty new password with an empty confirmation is accepted, so resubmitting a cleared form succeeds. */
  lemma EmptyPairAccepted(d: SecurityData)
    ensures HandleSecuritySubmit(EmptySecurity).1.kind == Success
    ensures d.newPassword == d.confirmPassword ==>
              HandleSecuritySubmit(HandleSecuritySubmit(d).0) == HandleSecuritySubmit(d)
  {
  }

  /** A mismatched submit can be repeated any number of times without touching the form. */
  lemma MismatchKeepsForm(d: SecurityData)
    requires d.newPassword != d.confirmPassword
    ensures HandleSecuritySubmit(HandleSecuritySubmit(d).0) == HandleSecuritySubmit(d)
  {
  }

  datatype Preferences = Preferences(emailNotifications: bool, smsNotifications: bool, marketingEmails: bool)

  const InitialPreferences := Preferences(true, false, false)

  datatype PreferenceKey = EmailNotifications | SmsNotifications | MarketingEmails

  function GetPreference(p: Preferences, k: PreferenceKey): bool {
    match k
    case EmailNotifications => p.emailNotifications
    case SmsNotifications => p.smsNotifications
    case MarketingEmails => p.marketingEmails
  }

  /** `handlePreferencesChange(key, value)`: the key takes the value and the other two keep theirs. */
  function HandlePreferencesChange(p: Preferences, k: PreferenceKey, value: bool): (r: Preferences)
    ensures GetPreference(r, k) == value
    ensures forall k' :: k' != k ==> GetPreference(r, k') == GetPreference(p, k')
  {
    match k
    case EmailNotifications => p.(emailNotifications := value)
    case SmsNotifications => p.(smsNotifications := value)
    case MarketingEmails => p.(marketingEmails := value)
  }

  /** Changing one switch twice keeps only the second value. */
  lemma PreferenceLastWriteWins(p: Preferences, k: PreferenceKey, a: bool, b: bool)
    ensures HandlePreferencesChange(HandlePreferencesChange(p, k, a), k, b) == HandlePreferencesChange(p, k, b)
  {
  }

  /** Changes to different switches commute. */
  lemma PreferenceChangesCommute(p: Preferences, k1: PreferenceKey, k2: PreferenceKey, a: bool, b: bool)
    requires k1 != k2
    ensures HandlePreferencesChange(HandlePreferencesChange(p, k1, a), k2, b)
            == HandlePreferencesChange(HandlePreferencesChange(p, k2, b), k1, a)
  {
  }
}

=== FILE: protected_route.dfy ===
/**
 * The three-way decision of `src/components/auth/ProtectedRoute.tsx`.
 * The role test only writes a console line: any signed-in user is let through.
 */
module ProtectedRoute {
  import opened Wrappers
  import opened Types

  /** What the guard renders. `roleLogged` records whether the role-mismatch line was logged. */
  datatype GateView =
    | Spinner
    | Redirect(to: string, replace: bool)
    | Children(roleLogged: bool)

  function Gate(isLoading: bool, user: Option<User>, allowedRoles: seq<Role>): (v: GateView)
    ensures isLoading <==> v.Spinner?
    ensures !isLoading && user.None? <==> v.Redirect?
    ensures v.Redirect? ==> v.to == "/login" && v.replace
    ensures !isLoading && user.Some? <==> v.Children?
    ensures v.Children? ==> (v.roleLogged <==> user.value.role !in allowedRoles)
  {
    if isLoading then Spinner
    else if user.None? then Redirect("/login", true)
    else Children(user.value.role !in allowedRoles)
  }

  /** The decision with the log line erased. */
  datatype Screen = Loading | ToLogin | Content

  function ScreenOf(v: GateView): Screen {
    match v
    case Spinner => Loading
    case Redirect(_, _) => ToLogin
    case Children(_) => Content
  }

  /** What is shown depends only on loading and on whether a user is present, never on the roles. */
  lemma RolesOnlyLogged(isLoading: bool, u1: Option<User>, u2: Option<User>, roles1: seq<Role>, roles2: seq<Role>)
    requires u1.Some? == u2.Some?
    ensures ScreenOf(Gate(isLoading, u1, roles1)) == ScreenOf(Gate(isLoading, u2, roles2))
  {
  }

  /** A signed-in user whose role is not listed is still shown the content. */
  lemma PermissiveForSignedIn(u: User, allowedRoles: seq<Role>)
    requires u.role !in allowedRoles
    ensures Gate(false, Some(u), allowedRoles) == Children(true)
  {
  }

  /** The check a strict guard would make; the source only logs its failure. */
  predicate StrictlyAdmits(role: Role, allowedRoles: seq<Role>) {
    role in allowedRoles
  }
}

=== FILE: seller_dashboard.dfy ===
/**
 * The statistics, colour maps, badge and stock label, and recent lists of
 * `src/pages/dashboard/SellerDashboard.tsx`. Its two colour maps take a
 * plain string, so any text outside the enumerations falls to the default.
 */
module SellerDashboard {
  import opened Types
  import opened Aggregates
  import BuyerDashboard

  /** The four stat cards; `totalRevenue` is the number before locale formatting. */
  datatype Stats = Stats(totalProducts: nat, active: nat, completed: nat, totalRevenue: real)

  function StatsFor(products: seq<Product>, orders: seq<Order>): (s: Stats)
    ensures s.totalProducts == |products|
    ensures s.active == CountWithStatus(orders, {Pending}) + CountWithStatus(orders, {Confirmed})
    ensures s.completed == CountWithStatus(orders, {Completed})
    ensures s.active + s.completed <= |orders|
    ensures s.totalRevenue == TotalAmount(orders)
  {
    CountDisjointUnion(orders, {Pending}, {Confirmed});
    assert {Pending} + {Confirmed} == {Pending, Confirmed};
    CountDisjointBounded(orders, {Pending, Confirmed}, {Completed});
    Stats(|products|, CountWithStatus(orders, {Pending, Confirmed}), CountWithStatus(orders, {Completed}), TotalAmount(orders))
  }

  /** Revenue counts every order whatever its status: pending orders add their amount too. */
  lemma RevenueIncludesPending(products: seq<Product>, orders: seq<Order>)
    ensures StatsFor(products, orders).totalRevenue
            == TotalAmount(WithStatus(orders, {Pending})) + TotalAmount(WithStatus(orders, AllStatuses() - {Pending}))
  {
    TotalSplitsByStatus(orders, {Pending});
  }

  /** `getStatusColor`, on the status text. */
  function StatusColor(status: string): string {
    if status == "pending" then BuyerDashboard.PendingClass
    else if status == "confirmed" then BuyerDashboard.ConfirmedClass
    else if status == "completed" then BuyerDashboard.CompletedClass
    else BuyerDashboard.DefaultClass
  }

  /** Both dashboards colour every order status alike. */
  lemma StatusColorsAgree(s: OrderStatus)
    ensures StatusColor(OrderStatusName(s)) == BuyerDashboard.StatusColor(s)
  {
  }

  const RedClass := "bg-red-100 text-red-800"

  /** `getPaymentStatusColor`, on the status text. */
  function PaymentStatusColor(status: string): string {
    if status == "pending" then BuyerDashboard.PendingClass
    else if status == "paid" then BuyerDashboard.CompletedClass
    else if status == "failed" then RedClass
    else BuyerDashboard.DefaultClass
  }

  /** Pending, paid and failed get three distinct classes; refunded falls to the default. */
  lemma PaymentColorClasses(s: PaymentStatus, t: PaymentStatus)
    ensures PaymentStatusColor(PaymentStatusName(s)) == BuyerDashboard.DefaultClass <==> s == Refunded
    ensures s != Refunded && s != t ==> PaymentStatusColor(PaymentStatusName(s)) != PaymentStatusColor(PaymentStatusName(t))
  {
  }

  /** The approval badge: its caption and colour. */
  datatype Badge = Badge(caption: string, cssClass: string)

  function ApprovalBadge(isApproved: bool): (b: Badge)
    ensures b.caption == "Approved" <==> isApproved
    ensures b.caption == "Pending" <==> !isApproved
  {
    if isApproved then Badge("Approved", BuyerDashboard.CompletedClass)
    else Badge("Pending", BuyerDashboard.PendingClass)
  }

  const LowStockClass := "text-red-600"
  const HighStockClass := "text-green-600"

  /** The stock label is green above ten units and red otherwise. */
  function StockClass(stock: int): (c: string)
    ensures c == HighStockClass <==> stock > 10
    ensures c == LowStockClass <==> stock <= 10
  {
    if stock > 10 then HighStockClass else LowStockClass
  }

  /** The recent-products and recent-orders cards list the first three items, in order. */
  lemma RecentListsArePrefixes(products: seq<Product>, orders: seq<Order>)
    ensures FirstThree(products) <= products && |FirstThree(products)| <= 3
    ensures FirstThree(orders) == BuyerDashboard.RecentOrders(orders)
    ensures |products| >= 3 ==> |FirstThree(products)| == 3
  {
  }
}

=== FILE: sequences.dfy ===
/** Relations between lists shared by the catalog filter and the dashboard folds. */
module Sequences {

  /** `a` is `b` with some elements left out, the rest in their order. */
  predicate IsSubsequence<T(==)>(a: seq<T>, b: seq<T>)
    decreases |b|
  {
    if |a| == 0 then true
    else if |b| == 0 then false
    else if a[0] == b[0] then IsSubsequence(a[1..], b[1..])
    else IsSubsequence(a, b[1..])
  }
}

=== FILE: text.dfy ===
/**
 * String helpers shared by the catalog filter and the category links:
 * ASCII `toLowerCase`, the `\s` character class restricted to ASCII,
 * `String.prototype.includes`, and the category slug
 * `name.toLowerCase().replace(/\s+/g, '-')`.
 */
module Text {

  /** ASCII members of the regular-expression class `\s`. */
  predicate IsSpace(c: char) {
    c == ' ' || c == '\t' || c == '\n' || c == '\r' || c == '\U{000B}' || c == '\U{000C}'
  }

  predicate IsUpper(c: char) {
    'A' <= c <= 'Z'
  }

  predicate NoSpace(s: string) {
    forall i :: 0 <= i < |s| ==> !IsSpace(s[i])
  }

  predicate NoUpper(s: string) {
    forall i :: 0 <= i < |s| ==> !IsUpper(s[i])
  }

  function LowerChar(c: char): (r: char)
    ensures !IsUpper(r)
    ensures IsSpace(r) <==> IsSpace(c)
    ensures !IsUpper(c) ==> r == c
  {
    if IsUpper(c) then (c as int + 32) as char else c
  }

  /** `toLowerCase` on ASCII letters; every other character is kept. */
  function Lower(s: string): (r: string)
    ensures |r| == |s|
  {
    if |s| == 0 then "" else [LowerChar(s[0])] + Lower(s[1..])
  }

  /** Each character is lower-cased on its own, so no upper-case letter is left. */
  lemma {:induction false} LowerPointwise(s: string)
    ensures NoUpper(Lower(s))
    ensures forall i :: 0 <= i < |s| ==> Lower(s)[i] == LowerChar(s[i])
    decreases |s|
  {
    if |s| > 0 {
      LowerPointwise(s[1..]);
    }
  }

  lemma LowerIdempotent(s: string)
    ensures Lower(Lower(s)) == Lower(s)
  {
  }

  /** `hay.includes(needle)`: some window of `hay` equals `needle`. */
  predicate Includes(hay: string, needle: string) {
    exists i :: 0 <= i <= |hay| - |needle| && OccursAt(hay, needle, i)
  }

  predicate OccursAt(hay: string, needle: string, i: int)
    requires 0 <= i <= |hay| - |needle|
  {
    hay[i..i + |needle|] == needle
  }

  /** The catalog's case-insensitive test `hay.toLowerCase().includes(needle.toLowerCase())`. */
  predicate IncludesIgnoringCase(hay: string, needle: string) {
    Includes(Lower(hay), Lower(needle))
  }

  /** Drops the leading whitespace of `s`: the rest of a run the regex has already matched. */
  function DropSpaces(s: string): (r: string)
    ensures |r| <= |s|
    ensures r == s[|s| - |r|..]
    ensures |r| > 0 ==> !IsSpace(r[0])
    ensures forall i :: 0 <= i < |s| - |r| ==> IsSpace(s[i])
  {
    if |s| > 0 && IsSpace(s[0]) then DropSpaces(s[1..]) else s
  }

  /** `replace(/\s+/g, '-')`: every maximal run of whitespace becomes one dash. */
  function CollapseSpaces(s: string): (r: string)
    ensures |r| <= |s|
    decreases |s|
  {
    if |s| == 0 then ""
    else if IsSpace(s[0]) then "-" + CollapseSpaces(DropSpaces(s[1..]))
    else [s[0]] + CollapseSpaces(s[1..])
  }

  /**
   * The collapsed text has no whitespace, gains no upper-case letter, and a
   * text without whitespace is left as it is.
   */
  lemma CollapseShape(s: string)
    ensures NoSpace(CollapseSpaces(s))
    ensures NoUpper(s) ==> NoUpper(CollapseSpaces(s))
    ensures NoSpace(s) ==> CollapseSpaces(s) == s
  {
    CollapseNoSpace(s);
    if NoUpper(s) {
      CollapseNoUpper(s);
    }
    if NoSpace(s) {
      CollapseKeeps(s);
    }
  }

  lemma {:induction false} CollapseNoSpace(s: string)
    ensures NoSpace(CollapseSpaces(s))
    decreases |s|
  {
    if |s| > 0 {
      if IsSpace(s[0]) {
        var d := DropSpaces(s[1..]);
        CollapseNoSpace(d);
        assert CollapseSpaces(s) == "-" + CollapseSpaces(d);
        ConsShape('-', CollapseSpaces(d));
      } else {
        var t := s[1..];
        CollapseNoSpace(t);
        assert CollapseSpaces(s) == [s[0]] + CollapseSpaces(t);
        ConsShape(s[0], CollapseSpaces(t));
      }
    }
  }

  lemma {:induction false} CollapseNoUpper(s: string)
    requires NoUpper(s)
    ensures NoUpper(CollapseSpaces(s))
    decreases |s|
  {
    if |s| > 0 {
      if IsSpace(s[0]) {
        var d := DropSpaces(s[1..]);
        forall i | 0 <= i < |d|
          ensures !IsUpper(d[i])
        {
          assert d[i] == s[1..][|s[1..]| - |d| + i];
        }
        CollapseNoUpper(d);
        assert CollapseSpaces(s) == "-" + CollapseSpaces(d);
        ConsShape('-', CollapseSpaces(d));
      } else {
        var t := s[1..];
        assert forall i :: 0 <= i < |t| ==> t[i] == s[i + 1];
        CollapseNoUpper(t);
        assert CollapseSpaces(s) == [s[0]] + CollapseSpaces(t);
        ConsShape(s[0], CollapseSpaces(t));
      }
    }
  }

  lemma {:induction false} CollapseKeeps(s: string)
    requires NoSpace(s)
    ensures CollapseSpaces(s) == s
    decreases |s|
  {
    if |s| > 0 {
      var t := s[1..];
      assert forall i :: 0 <= i < |t| ==> t[i] == s[i + 1];
      CollapseKeeps(t);
      assert [s[0]] + t == s;
    }
  }

  /** Prepending one character keeps both shapes when the character has them. */
  lemma ConsShape(c: char, r: string)
    ensures !IsSpace(c) && NoSpace(r) ==> NoSpace([c] + r)
    ensures !IsUpper(c) && NoUpper(r) ==> NoUpper([c] + r)
  {
    var cr := [c] + r;
    assert forall i :: 1 <= i < |cr| ==> cr[i] == r[i - 1];
  }

  /** The category slug: lowercase, then collapse whitespace runs. */
  function Slugify(name: string): string {
    CollapseSpaces(Lower(name))
  }

  /** A slug has no whitespace, no upper-case letter, and is no longer than its input. */
  lemma SlugShape(name: string)
    ensures NoSpace(Slugify(name)) && NoUpper(Slugify(name))
    ensures |Slugify(name)| <= |name|
  {
    LowerPointwise(name);
    CollapseShape(Lower(name));
  }

  lemma LowerOfNoUpper(s: string)
    requires NoUpper(s)
    ensures Lower(s) == s
  {
  }

  /** Slugging a slug changes nothing. */
  lemma SlugIdempotent(name: string)
    ensures Slugify(Slugify(name)) == Slugify(name)
  {
    var t := Slugify(name);
    SlugShape(name);
    LowerOfNoUpper(t);
    CollapseShape(t);
  }

  /**
   * The run rule: a word `u` without whitespace, followed by a non-empty
   * whitespace run `w`, followed by text `v` that does not start with
   * whitespace, becomes `u`, one dash, and the rest.
   */
  lemma {:induction false} CollapseRun(u: string, w: string, v: string)
    requires NoSpace(u)
    requires |w| > 0 && forall i :: 0 <= i < |w| ==> IsSpace(w[i])
    requires |v| == 0 || !IsSpace(v[0])
    ensures CollapseSpaces(u + w + v) == u + "-" + CollapseSpaces(v)
    decreases |u|
  {
    if |u| == 0 {
      assert u + w + v == w + v;
      CollapseLeadingRun(w, v);
    } else {
      var s, u' := u + w + v, u[1..];
      assert CollapseSpaces(s) == [u[0]] + CollapseSpaces(u' + w + v) by {
        assert s[0] == u[0] && !IsSpace(s[0]);
        assert s[1..] == u' + w + v;
      }
      assert NoSpace(u') by {
        assert forall i :: 0 <= i < |u'| ==> u'[i] == u[i + 1];
      }
      CollapseRun(u', w, v);
      assert [u[0]] + u' == u;
      ConsDash(u[0], u', CollapseSpaces(v));
    }
  }

  lemma ConsDash(c: char, a: string, b: string)
    ensures [c] + (a + "-" + b) == [c] + a + "-" + b
  {
  }

  /** A text that opens with a whitespace run collapses to one dash and the rest. */
  lemma CollapseLeadingRun(w: string, v: string)
    requires |w| > 0 && forall i :: 0 <= i < |w| ==> IsSpace(w[i])
    requires |v| == 0 || !IsSpace(v[0])
    ensures CollapseSpaces(w + v) == "-" + CollapseSpaces(v)
  {
    var s := w + v;
    assert IsSpace(s[0]) by {
      assert s[0] == w[0];
    }
    assert DropSpaces(s[1..]) == v by {
      var w' := w[1..];
      assert s[1..] == w' + v;
      forall i | 0 <= i < |w'|
        ensures IsSpace(w'[i])
      {
        assert w'[i] == w[i + 1];
      }
      DropAllSpaces(w', v);
    }
    assert CollapseSpaces(s) == "-" + CollapseSpaces(DropSpaces(s[1..]));
  }

  /** Lower-casing distributes over concatenation. */
  lemma LowerAppend(a: string, b: string)
    ensures Lower(a + b) == Lower(a) + Lower(b)
  {
    LowerPointwise(a + b);
    LowerPointwise(a);
    LowerPointwise(b);
    var l, r := Lower(a + b), Lower(a) + Lower(b);
    forall i | 0 <= i < |l|
      ensures l[i] == r[i]
    {
      if i < |a| {
        assert (a + b)[i] == a[i];
      } else {
        assert (a + b)[i] == b[i - |a|];
      }
    }
  }

  /** Collapsing two space-free pieces joined by one space puts a single dash between them. */
  lemma CollapseTwo(u: string, v: string)
    requires NoSpace(u) && NoSpace(v) && |v| > 0
    ensures CollapseSpaces(u + " " + v) == u + "-" + v
  {
    CollapseRun(u, " ", v);
    CollapseShape(v);
  }

  lemma CollapseThree(u: string, v: string, w: string)
    requires NoSpace(u) && NoSpace(v) && NoSpace(w) && |v| > 0 && |w| > 0
    ensures CollapseSpaces(u + " " + v + " " + w) == u + "-" + v + "-" + w
  {
    var t := v + " " + w;
    assert t[0] == v[0];
    ConcatAssoc(u + " ", v + " ", w);
    ConcatAssoc(u + " ", v, " ");
    CollapseRun(u, " ", t);
    CollapseTwo(v, w);
    ConcatAssoc(u + "-", v + "-", w);
    ConcatAssoc(u + "-", v, "-");
  }

  /** A space-free word keeps having no whitespace once lower-cased. */
  lemma LowerNoSpace(s: string)
    requires NoSpace(s)
    ensures NoSpace(Lower(s))
  {
    LowerPointwise(s);
  }

  lemma LowerTwo(a: string, b: string)
    ensures Lower(a + " " + b) == Lower(a) + " " + Lower(b)
  {
    LowerAppend(a + " ", b);
    LowerAppend(a, " ");
    assert Lower(" ") == " ";
  }

  lemma LowerThree(a: string, b: string, c: string)
    ensures Lower(a + " " + b + " " + c) == Lower(a) + " " + Lower(b) + " " + Lower(c)
  {
    LowerAppend(a + " " + b + " ", c);
    LowerAppend(a + " " + b, " ");
    LowerAppend(a + " ", b);
    LowerAppend(a, " ");
    assert Lower(" ") == " ";
  }

  /** Two words joined by one space slug to the lower-cased words joined by one dash. */
  lemma SlugOfTwoWords(name: string, a: string, b: string)
    requires name == a + " " + b
    requires NoSpace(a) && NoSpace(b) && |b| > 0
    ensures Slugify(name) == Lower(a) + "-" + Lower(b)
  {
    LowerTwo(a, b);
    LowerNoSpace(a);
    LowerNoSpace(b);
    CollapseTwo(Lower(a), Lower(b));
  }

  /** Three words joined by single spaces slug to the lower-cased words joined by dashes. */
  lemma SlugOfThreeWords(name: string, a: string, b: string, c: string)
    requires name == a + " " + b + " " + c
    requires NoSpace(a) && NoSpace(b) && NoSpace(c) && |b| > 0 && |c| > 0
    ensures Slugify(name) == Lower(a) + "-" + Lower(b) + "-" + Lower(c)
  {
    LowerThree(a, b, c);
    LowerNoSpace(a);
    LowerNoSpace(b);
    LowerNoSpace(c);
    CollapseThree(Lower(a), Lower(b), Lower(c));
  }

  lemma {:induction false} DropAllSpaces(w: string, v: string)
    requires forall i :: 0 <= i < |w| ==> IsSpace(w[i])
    requires |v| == 0 || !IsSpace(v[0])
    ensures DropSpaces(w + v) == v
    decreases |w|
  {
    if |w| == 0 {
      assert w + v == v;
    } else {
      assert (w + v)[1..] == w[1..] + v;
      DropAllSpaces(w[1..], v);
    }
  }

  lemma ConcatAssoc(a: string, b: string, c: string)
    ensures a + (b + c) == (a + b) + c
  {
  }

  /** What remains to be emitted for the text `t`, given whether a whitespace run is open. */
  function Pending(t: string, inRun: bool): string {
    CollapseSpaces(if inRun then DropSpaces(t) else t)
  }

  /** One step of the scan emits exactly what the collapse of the remaining text begins with. */
  lemma ScanStep(t: string, inRun: bool)
    requires |t| > 0
    ensures IsSpace(t[0]) && !inRun ==> Pending(t, inRun) == "-" + Pending(t[1..], true)
    ensures IsSpace(t[0]) && inRun ==> Pending(t, inRun) == Pending(t[1..], true)
    ensures !IsSpace(t[0]) ==> Pending(t, inRun) == [t[0]] + Pending(t[1..], false)
  {
  }

  /** What the scan emits for one lowered character, given whether a whitespace run is open. */
  function Emit(c: char, inRun: bool): string {
    if IsSpace(c) then (if inRun then "" else "-") else [c]
  }

  /** Advancing the scan by one character of the lowered name moves its emission out of the pending text. */
  lemma ScanAdvance(name: string, low: string, i: int, inRun: bool)
    requires low == Lower(name) && 0 <= i < |name|
    ensures Pending(low[i..], inRun)
         == Emit(LowerChar(name[i]), inRun) + Pending(low[i + 1..], IsSpace(LowerChar(name[i])))
  {
    LowerPointwise(name);
    var rest := low[i..];
    assert rest[0] == LowerChar(name[i]);
    assert rest[1..] == low[i + 1..];
    ScanStep(rest, inRun);
  }

  /**
   * The left-to-right scan a global regular-expression replace performs:
   * each character is lowered, the first whitespace of a run emits one dash,
   * the following whitespace of the same run emits nothing.
   */
  method SlugScan(name: string) returns (slug: string)
    ensures slug == Slugify(name)
  {
    var low := Lower(name);
    slug := "";
    var inRun := false;
    var i := 0;
    assert low[i..] == low;
    while i < |name|
      invariant |low| == |name| && 0 <= i <= |name|
      invariant Slugify(name) == slug + Pending(low[i..], inRun)
    {
      var c := LowerChar(name[i]);
      ScanAdvance(name, low, i, inRun);
      var emitted := Emit(c, inRun);
      ConcatAssoc(slug, emitted, Pending(low[i + 1..], IsSpace(c)));
      slug, inRun, i := slug + emitted, IsSpace(c), i + 1;
    }
    assert low[i..] == "";
  }
}

=== FILE: types.dfy ===
/**
 * The records and closed enumerations of `src/types/index.ts` that the modelled
 * pages use. Dates are modelled as integer timestamps supplied by the caller,
 * prices and ratings as reals used only in comparisons and sums.
 */
module Types {
  import opened Wrappers

  type Timestamp = int

  /** `User.role`: exactly three values. */
  datatype Role = Buyer | Seller | Admin

  /** The roles a user can give themself: `RegisterData.role` and the `switchRole` argument. */
  type SelfRole = r: Role | r != Admin witness Buyer

  /** The string the source stores for a role. */
  function RoleName(r: Role): string {
    match r
    case Buyer => "buyer"
    case Seller => "seller"
    case Admin => "admin"
  }

  lemma RoleNameInjective(a: Role, b: Role)
    ensures RoleName(a) == RoleName(b) <==> a == b
  {
  }

  datatype User = User(
    id: string,
    email: string,
    name: string,
    phone: string,
    role: Role,
    isVerified: bool,
    createdAt: Timestamp,
    updatedAt: Timestamp)

  /** `ProductCategory`: a closed set of thirteen slugs. */
  datatype ProductCategory =
    | Fasteners | RawMaterials | ToolsEquipment | Machinery | StructuralComponents
    | DoorsWindows | Electrical | Plumbing | InteriorFinishing | WoodWork
    | GlassAluminum | ExteriorLandscaping | SafetyEquipment

  /** The slug string of each category value. */
  function CategoryValue(c: ProductCategory): string {
    match c
    case Fasteners => "fasteners"
    case RawMaterials => "raw-materials"
    case ToolsEquipment => "tools-equipment"
    case Machinery => "machinery"
    case StructuralComponents => "structural-components"
    case DoorsWindows => "doors-windows"
    case Electrical => "electrical"
    case Plumbing => "plumbing"
    case InteriorFinishing => "interior-finishing"
    case WoodWork => "wood-work"
    case GlassAluminum => "glass-aluminum"
    case ExteriorLandscaping => "exterior-landscaping"
    case SafetyEquipment => "safety-equipment"
  }

  /** Some product category is stored under the string `s`. */
  predicate IsCategoryValue(s: string) {
    exists c :: CategoryValue(c) == s
  }

  const AllCategories: seq<ProductCategory> := [
    Fasteners, RawMaterials, ToolsEquipment, Machinery, StructuralComponents,
    DoorsWindows, Electrical, Plumbing, InteriorFinishing, WoodWork,
    GlassAluminum, ExteriorLandscaping, SafetyEquipment]

  /** True when no value occurs twice in `s`. */
  predicate Distinct<T(==)>(s: seq<T>) {
    forall i, j :: 0 <= i < j < |s| ==> s[i] != s[j]
  }

  /** The category enumeration has thirteen values, each with its own slug. */
  lemma CategoriesClosed()
    ensures |AllCategories| == 13
    ensures forall c: ProductCategory :: c in AllCategories
    ensures Distinct(AllCategories)
    ensures forall c, d: ProductCategory :: CategoryValue(c) == CategoryValue(d) ==> c == d
  {
    forall c: ProductCategory
      ensures c in AllCategories
    {
      match c
      case Fasteners => assert AllCategories[0] == c;
      case RawMaterials => assert AllCategories[1] == c;
      case ToolsEquipment => assert AllCategories[2] == c;
      case Machinery => assert AllCategories[3] == c;
      case StructuralComponents => assert AllCategories[4] == c;
      case DoorsWindows => assert AllCategories[5] == c;
      case Electrical => assert AllCategories[6] == c;
      case Plumbing => assert AllCategories[7] == c;
      case InteriorFinishing => assert AllCategories[8] == c;
      case WoodWork => assert AllCategories[9] == c;
      case GlassAluminum => assert AllCategories[10] == c;
      case ExteriorLandscaping => assert AllCategories[11] == c;
      case SafetyEquipment => assert AllCategories[12] == c;
    }
  }

  /** `OrderStatus`: exactly seven values. */
  datatype OrderStatus = Pending | Confirmed | Processing | Shipped | Delivered | Cancelled | Completed

  function OrderStatusName(s: OrderStatus): string {
    match s
    case Pending => "pending"
    case Confirmed => "confirmed"
    case Processing => "processing"
    case Shipped => "shipped"
    case Delivered => "delivered"
    case Cancelled => "cancelled"
    case Completed => "completed"
  }

  const AllOrderStatuses: seq<OrderStatus> :=
    [Pending, Confirmed, Processing, Shipped, Delivered, Cancelled, Completed]

  /** `PaymentStatus`: exactly four values. */
  datatype PaymentStatus = PaymentPending | Paid | Failed | Refunded

  function PaymentStatusName(s: PaymentStatus): string {
    match s
    case PaymentPending => "pending"
    case Paid => "paid"
    case Failed => "failed"
    case Refunded => "refunded"
  }

  const AllPaymentStatuses: seq<PaymentStatus> := [PaymentPending, Paid, Failed, Refunded]

  lemma StatusesClosed()
    ensures |AllOrderStatuses| == 7 && Distinct(AllOrderStatuses)
    ensures forall s: OrderStatus :: s in AllOrderStatuses
    ensures forall s, t: OrderStatus :: OrderStatusName(s) == OrderStatusName(t) ==> s == t
    ensures |AllPaymentStatuses| == 4 && Distinct(AllPaymentStatuses)
    ensures forall s: PaymentStatus :: s in AllPaymentStatuses
    ensures forall s, t: PaymentStatus :: PaymentStatusName(s) == PaymentStatusName(t) ==> s == t
  {
    forall s: OrderStatus
      ensures s in AllOrderStatuses
    {
      match s
      case Pending => assert AllOrderStatuses[0] == s;
      case Confirmed => assert AllOrderStatuses[1] == s;
      case Processing => assert AllOrderStatuses[2] == s;
      case Shipped => assert AllOrderStatuses[3] == s;
      case Delivered => assert AllOrderStatuses[4] == s;
      case Cancelled => assert AllOrderStatuses[5] == s;
      case Completed => assert AllOrderStatuses[6] == s;
    }
    forall s: PaymentStatus
      ensures s in AllPaymentStatuses
    {
      match s
      case PaymentPending => assert AllPaymentStatuses[0] == s;
      case Paid => assert AllPaymentStatuses[1] == s;
      case Failed => assert AllPaymentStatuses[2] == s;
      case Refunded => assert AllPaymentStatuses[3] == s;
    }
  }

  datatype Product = Product(
    id: string,
    sellerId: string,
    name: string,
    category: ProductCategory,
    subcategory: string,
    price: real,
    unit: string,
    stock: int,
    images: seq<string>,
    isApproved: bool,
    rating: real)

  datatype Order = Order(
    id: string,
    buyerId: string,
    sellerId: string,
    itemCount: nat,
    totalAmount: real,
    status: OrderStatus,
    paymentStatus: PaymentStatus)

  /**
   * `ProductFilters`: every field optional. `None` stands for `undefined`;
   * JavaScript truthiness decides which present values switch a check on.
   */
  datatype ProductFilters = ProductFilters(
    category: Option<ProductCategory>,
    subcategory: Option<string>,
    minPrice: Option<real>,
    maxPrice: Option<real>,
    rating: Option<real>,
    inStock: Option<bool>,
    sellerId: Option<string>,
    search: Option<string>)

  datatype LoginCredentials = LoginCredentials(email: string, password: string)

  datatype RegisterData = RegisterData(
    name: string,
    email: string,
    phone: string,
    password: string,
    confirmPassword: string,
    role: SelfRole)
}

=== FILE: wrappers.dfy ===
/** Optional values: the model's stand-in for TypeScript's `T | undefined` and `T | null`. */
module Wrappers {

  datatype Option<+T> = None | Some(value: T)
}
